=== FILE: README.md ===
# Burp record store — a Dafny model of the table engine

Burp keeps named tables of JSON records in memory, keyed by integer ids that an
auto-increment cursor hands out, and writes tables to JSON files (one folder per
database, one file per table). This project models:

- the `Burp` engine of the HTTP service (`API/utils/main.py`), module `ApiBurp`;
- the older `Burp` engine (`burp/burp.py`), module `LegacyBurp`;
- the file-level helper `DataPersister` and its settings (`burp/persist.py`), module
  `Persist`, over an abstract file system (module `FileSystem`: a map from absolute path
  to a folder or a file whose text decodes as JSON, whose text is not JSON, or whose bytes
  are not text in the platform encoding).

Supporting modules: `Results` (option, result, and the error reasons with the Python
exception class each one raises), `Records` (JSON values, records, tables, the shallow
merge `update` performs, and `str(int)` as `json.dump` writes int keys), `Paths`
(`os.path.join` and `os.path.dirname`; the working directory is an absolute path), `ApiTrace` (runs of record
operations on the service engine).

Every engine call is a pure function from the engine state to a `Step(next, result)`.
When Python raises part-way through a method, `next` keeps whatever the method had
already changed: `create_database` of the service engine sets the name, folder and
persister before it raises `KeyError` on an existing folder; `create_table` registers
the table and switches auto-increment and encryption on before it probes the disk, and
it has stored the extension override and the table name before the persister's failure
is re-raised as `Exception`.

The service engine imports its persister from `API/utils/persist.py`, which is not part
of this model. Each answer that persister gives is a parameter of the operation that
asks for it: `existing` (the paths its existence check reports), `created` (the path
`create_table_file` returned, `None` when it raised), `removal` (how `delete_file` went)
and `loaded` (the table and `max_uid` that `load_data` returned, or its error). The
model assumes, and states as `ApiBurp.MaxUidIsLargest`, that `max_uid` is the largest key
of the loaded table; the lemma about loading takes it as a hypothesis.
`generate_key()` is random, so its key is the parameter `freshKey`; a `Fernet` instance is
represented by the key it was built from. Whether `Fernet(key)` accepts the key handed to
`load_data` is the parameter `keyAccepted`: a rejected key raises `ValueError` after the
flag and the key are recorded and before anything is loaded.

The central invariant, `Valid`, says that every stored id lies below the cursor (for the
service engine: every id of the active table; for the older engine, whose cursor is
shared by all tables: every id of every table). Every operation keeps it except
`add_one` while auto-increment is off: then the cursor does not move, the record is
written under the cursor itself and the call returns the cursor minus one, which is not
the key just written (`LegacyBurp.AddOneWithoutAutoIncrementOverwrites`). With
auto-increment on, any run of inserts, updates, deletes and reads hands out the ids
`c, c+1, c+2, …` from the cursor `c`, none of them already in the table
(`ApiTrace.IdsAreConsecutiveAndFresh`).

Where the code behaves surprisingly, the model follows the code:

- Creating a table when the probed path exists does not fail: both engines return a
  message, and by then the name is already registered with an empty table (and
  auto-increment is on if `auto_increment` was true). The service engine probes
  `cur_dir/table_name + extension`, a file directly in `cur_dir`
  (`ApiBurp.ProbeSitsInCurDir`), whatever path its persister then writes; the older
  engine's probe is described next.
- The older engine's `create_table` probes `folder + table_name + extension` with no path
  separator (`shoporders.json` next to the `shop` folder), so it never sees the real table
  file `shop/orders.json`, and re-creating a table overwrites that file with `{}`
  (`LegacyBurp.ProbeIsNotTheTableFile`, `LegacyBurp.CreateTableOverwritesExistingFile`).
- A table name holding a '/' is not refused: `create_table_file` makes only the database
  folder, opening the file in the missing sub-folder fails and is re-raised as
  `Exception`, and the older engine prints that and keeps the table active, leaving the
  database folder behind (`LegacyBurp.SlashedNameIsNotCreated`). An absolute table name
  discards the database folder altogether, as `os.path.join` does.
- The older engine's `create_database` only prints when the folder exists, and re-creating
  a registered table only prints and resets it to empty.
- `get_all` returns a message instead of failing when no table is active.
- Ids are not "never reused" after a delete. With auto-increment off the cursor does not
  move (see above). With it on, `load_data` still resets the cursor to one past the
  largest id in the file, so deleting the newest record, saving and loading the table back
  hands that record's id out again (`ApiBurp.DeletedNewestIdIsReissuedAfterReload`).

## Model

| member | source | states |
|---|---|---|
| `Results.OrElse` | burp/persist.py:17-19 | `x or default`: a `None` or empty override yields the default, any other the override |
| `Records.Merge` | API/utils/main.py:174-175 | the merged record has the keys of both; keys in `data` take the new value, all other keys keep the old one |
| `Records.MergeIdempotent` | API/utils/main.py:174-175 | applying the same update fields twice gives the record the first update gave |
| `Records.Decimal` | burp/persist.py:135 | the key `json.dump` writes for an int id is non-empty, starts with '-' exactly for negative ids, and is all digits otherwise |
| `Records.DecimalInjective` | burp/persist.py:105-135 | different ids are written under different keys |
| `Paths.Join` | burp/persist.py:52-53 | `os.path.join` returns an absolute second part unchanged and keeps an absolute first part absolute |
| `Paths.JoinAssociative` | burp/persist.py:52-56 | `join(cwd, join(folder, file))` is `join(join(cwd, folder), file)`, so the table file is named relative to the folder `makedirs` makes |
| `Paths.ParentOfJoin` | burp/persist.py:52-61 | `dirname(join(a, n))` is `a` for a tidy folder `a` and a name `n` without '/' |
| `FileSystem.Write` | burp/persist.py:134-135 | opening for write fails exactly on a folder, or on a new file whose `dirname` is not a folder; otherwise only that path changes and it holds the new content |
| `FileSystem.MakeDirs` | burp/persist.py:56 | `makedirs(exist_ok=True)` makes the missing folders above the target from the top down and fails only on a file in the way (then nothing is made); afterwards the folder exists, the entries that were there are unchanged, and every entry added is a folder on the way to the target |
| `Persist.NewSettings` | burp/persist.py:13-19 | each setting is its override when that is a non-empty string, and its default otherwise |
| `Persist.DefaultSettings` | burp/persist.py:9-19 | with no override the settings are folder `data`, extension `.json`, encoding `utf-8` |
| `Persist.NewPersister` | burp/persist.py:27-38 | a new persister holds the given settings and has recorded no path yet |
| `Persist.CheckExists` | burp/persist.py:71-81 | an absolute path exists exactly when it is present; a relative one is looked up below the working directory |
| `Persist.TableFileSitsInFolder` | burp/persist.py:52-56 | for a tidy folder name and a file name without '/', the table file's `dirname` is the folder `makedirs` is asked for, and the file path is longer |
| `Persist.CreateTableFile` | burp/persist.py:41-68 | when the table file is missing `cwd/foldername` is made first, a `makedirs` failure escapes as `OSError` with nothing changed; then the open succeeds exactly when `Write` would on the folders made, and a failure there is `Exception` with the folders kept; on success the file holds `data` and is recorded and returned; any other entry added is a folder on the way |
| `Persist.PlaceTableFileOpenFails` | burp/persist.py:56-65 | when the folders are made but neither the file nor its own folder exists, the result is `Exception` and the folders made stay |
| `Persist.CreateTableFileSucceeds` | burp/persist.py:52-68 | with the working directory present and plain names the file is created and holds `data`, unless a file blocks the folder or a folder sits where the file goes |
| `Persist.CreateTableFileEmpties` | burp/persist.py:60-62 | with the default argument an existing table file is overwritten with the empty object |
| `Persist.Existing` | burp/persist.py:115-124 | `add_data` starts from the file's object, or from `{}` when the file is missing or its text is not JSON; bytes that are not text raise `ValueError` (`UnicodeDecodeError` is not caught), and a folder or a non-object value fails too |
| `Persist.DataFileSitsInFolder` | burp/persist.py:106 | for a tidy folder name and a file name without '/', the data file's `dirname` is `cwd/folder_name` |
| `Persist.AddData` | burp/persist.py:84-135 | `filepath` is recorded; the call succeeds exactly when the path is a file holding an object or text that is not JSON, or is new and its `dirname` is a folder; a file of bytes that are not text raises `ValueError` and nothing is written; the file then ends up as its previous object (or `{}`) with key `str(id)` set to `data`, every other key and every other path unchanged; nothing is returned |
| `Persist.AddDataKeepsEarlierIds` | burp/persist.py:105-135 | after two `add_data` calls with different ids on one file both records are in it |
| `LegacyBurp.Init` | burp/burp.py:11-21 | a new engine has no tables, no active table, no database, cursor 0 and auto-increment off |
| `LegacyBurp.CreateDatabase` | burp/burp.py:24-48 | an encoding outside the allow-list raises `ValueError` with nothing changed; otherwise folder and encoding are stored and the database gets a fresh persister; nothing else changes, `filepath` included |
| `LegacyBurp.CreateTable` | burp/burp.py:88-116 | the name is (re)registered empty in every outcome and never refused; a missing database raises; a probe hit returns a message; otherwise the table becomes active and the write is reported failed exactly when `create_table_file` fails, with the file system as it left it, and on success the file holds `{}`; each outcome gives the whole next state: the probe hit and the missing database change only the table map and the auto-increment flag, and success also sets `table_name`, `filepath` and the persister's `db_filepath` |
| `LegacyBurp.AutoIncrement` | burp/burp.py:203-205 | the cursor advances by one when auto-increment is on and stays otherwise; nothing else changes |
| `LegacyBurp.AddOne` | burp/burp.py:119-137 | an unknown table raises `KeyError` with nothing changed; otherwise `data` is stored under the old cursor, nothing else in the tables changes, and the result is the key written when auto-increment is on |
| `LegacyBurp.CheckId` | burp/burp.py:70-85 | succeeds exactly when a table is active, registered and holds the id; otherwise `KeyError` |
| `LegacyBurp.Delete` | burp/burp.py:140-150 | removes exactly the given id from the active table and nothing else; a missing table or id raises `KeyError` with nothing changed |
| `LegacyBurp.Update` | burp/burp.py:153-164 | the record becomes the shallow merge of `data` into it and is returned; all other records stay; a missing id raises `KeyError` with nothing changed |
| `LegacyBurp.GetOne` | burp/burp.py:167-176 | returns the stored record exactly when the existence check passes, else `KeyError` |
| `LegacyBurp.GetAll` | burp/burp.py:179-186 | returns the active table, or the message when the name is empty or unregistered |
| `LegacyBurp.InitValid` | burp/burp.py:17-19 | a new engine satisfies the cursor invariant |
| `LegacyBurp.AddOneFresh` | burp/burp.py:134-137 | with auto-increment on, the id written is in no table yet and the invariant holds afterwards |
| `LegacyBurp.AddOneIdsIncrease` | burp/burp.py:134-137 | two successive inserts with auto-increment on return consecutive ids, whatever tables they target |
| `LegacyBurp.AddOneWithoutAutoIncrementOverwrites` | burp/burp.py:203-205 | with auto-increment off two inserts write the same key, the second overwriting the first, and both return the cursor minus one |
| `LegacyBurp.DeleteKeepsValid` | burp/burp.py:146-148 | deleting keeps the invariant, never moves the cursor, and the deleted id is gone |
| `LegacyBurp.UpdateKeepsValid` | burp/burp.py:162-164 | updating keeps the invariant |
| `LegacyBurp.CreateTableKeepsValid` | burp/burp.py:101-105 | (re)creating a table keeps the invariant and the persister's settings in step with the engine's |
| `LegacyBurp.CreateDatabaseKeepsValid` | burp/burp.py:36-47 | creating a database keeps the invariant and the shared settings |
| `LegacyBurp.CreateTableOverwritesExistingFile` | burp/burp.py:107-113 | when the probe path is absent, re-creating a table whose file holds data leaves that file holding `{}` |
| `LegacyBurp.GetOneAgreesWithGetAll` | burp/burp.py:167-186 | the existence check passes exactly on the ids `get_all` lists, and `get_one` returns the listed record |
| `LegacyBurp.ReadAfterInsert` | burp/burp.py:134-137 | after an insert into the active table the record reads back under the old cursor (and under the returned id when auto-increment is on), and the listing is the old table plus that entry |
| `LegacyBurp.ReadAfterUpdate` | burp/burp.py:160-164 | after an update the id reads back as the merged record the call returned; every other id reads as before |
| `LegacyBurp.DeleteForgetsOnlyThatId` | burp/burp.py:146-148 | after a delete the id fails the existence check and every other id passes or fails it as before |
| `LegacyBurp.ProbeMissesTableFile` | burp/burp.py:107-108 | for a relative folder and table name the probed path is never the table file |
| `LegacyBurp.CreateTableSucceeds` | burp/burp.py:107-116 | with the working directory present, plain names and a missed probe, the table is created, active, empty, and its file holds `{}` |
| `LegacyBurp.CreateTableIntoMissingFolder` | burp/burp.py:112-116 | when the table file's own folder is still missing after the database folder is made, the write is reported failed, the table is active anyway, and the database folder stays |
| `LegacyBurp.SlashedNameIsNotCreated` | burp/burp.py:112-116 | a table name `dir/leaf` whose sub-folder does not exist is reported failed, stays active, and leaves only the database folder behind |
| `LegacyBurp.ProbeIsNotTheTableFile` | burp/burp.py:107 | for database `shop` and table `orders` the probe is `cwd/shoporders.json` while the file is `cwd/shop/orders.json` |
| `ApiBurp.Init` | API/utils/main.py:9-23 | a new engine has no tables, table name `""`, cursor 0, auto-increment, persister and encryption off, no file path, default settings, and `cur_dir` is `cwd/utils` |
| `ApiBurp.CreateDatabase` | API/utils/main.py:30-53 | a bad encoding raises `ValueError` with nothing changed; otherwise name, folder and persister are set and only then an existing `cur_dir/db_name` raises `KeyError`; every other field is unchanged |
| `ApiBurp.Encrypted` | API/utils/main.py:112-115 | asking for encryption installs the fresh key, its cipher and the flag; nothing else changes |
| `ApiBurp.ProbeSitsInCurDir` | API/utils/main.py:117 | for a tidy `cur_dir` and a plain name the probed file sits directly in `cur_dir` |
| `ApiBurp.CreateTable` | API/utils/main.py:94-128 | `KeyError` exactly for a registered name, with nothing changed; otherwise the name is registered empty and encryption switched on only if asked, then no persister raises, a probe hit returns a message and leaves the active table alone, a created file activates the table with the extension override, and a persister failure raises `Exception` with the name active and the override stored; database name, persister and `cur_dir` never change, and when no persister raises or the probe hits, only the table entry, auto-increment and encryption state have changed |
| `ApiBurp.AutoIncrement` | API/utils/main.py:237-239 | the cursor advances by one when auto-increment is on and stays otherwise; nothing else changes |
| `ApiBurp.AddOne` | API/utils/main.py:131-149 | no active table raises `KeyError` with nothing changed; otherwise `data` is stored under the old cursor and the result is the key written when auto-increment is on |
| `ApiBurp.CheckId` | API/utils/main.py:76-91 | succeeds exactly when the table name is set, non-empty, registered and holds the id; otherwise `KeyError` |
| `ApiBurp.Delete` | API/utils/main.py:152-162 | removes exactly the given id from the active table; every other entry, table and the cursor stay; failures raise `KeyError` with nothing changed |
| `ApiBurp.Update` | API/utils/main.py:165-176 | sets every key of `data`, keeps unmentioned keys and all other records, returns the merged record; failures raise `KeyError` with nothing changed |
| `ApiBurp.GetOne` | API/utils/main.py:198-207 | returns the stored record exactly when the existence check passes, else `KeyError` |
| `ApiBurp.GetAll` | API/utils/main.py:210-217 | returns the active table, or the message when no non-empty registered name is set |
| `ApiBurp.DeleteTable` | API/utils/main.py:178-195 | removes the table entry and resets table name, auto-increment, cursor, key, cipher and flag, and changes nothing else; with no table name it raises `KeyError` and nothing changes |
| `ApiBurp.SaveSnapshot` | API/utils/main.py:219-234 | the persister is handed the whole active table with the current encryption state, database name and `cur_dir`; an empty name saves nothing |
| `ApiBurp.LoadData` | API/utils/main.py:242-270 | a requested key is recorded; a key `Fernet` rejects raises `ValueError` with no cipher installed and nothing loaded; otherwise a successful load makes the table active with its loaded contents, auto-increment on and the cursor at `max_uid + 1`; without a request the encryption state is untouched; a failure changes nothing but the persister and the recorded encryption request, and no call changes settings, `cur_dir` or `filepath` |
| `ApiBurp.InitValid` | API/utils/main.py:15-19 | a new engine satisfies the cursor invariant and has no active table |
| `ApiBurp.AddOneFresh` | API/utils/main.py:146-149 | with auto-increment on the insert returns the cursor, writes an id the table does not hold, and the cursor grows by exactly one |
| `ApiBurp.AddOneIdsIncrease` | API/utils/main.py:146-149 | two successive inserts with auto-increment on return strictly increasing ids |
| `ApiBurp.DeleteKeepsValid` | API/utils/main.py:158-160 | deleting keeps the invariant and leaves the cursor where it was, so a deleted id is not handed out again |
| `ApiBurp.UpdateKeepsValid` | API/utils/main.py:172-176 | updating keeps the invariant |
| `ApiBurp.CreateTableKeepsValid` | API/utils/main.py:107-123 | creating a table keeps the invariant |
| `ApiBurp.DeleteTableKeepsValid` | API/utils/main.py:184-194 | tearing a table down keeps the invariant |
| `ApiBurp.LoadEstablishesValid` | API/utils/main.py:259-267 | if `max_uid` is the largest loaded id, every loaded id lies below the new cursor, which is one past the largest; a rejected key keeps the invariant as it was |
| `ApiBurp.CreateDatabaseKeepsValid` | API/utils/main.py:30-53 | creating a database keeps the invariant |
| `ApiBurp.GetOneAgreesWithGetAll` | API/utils/main.py:198-217 | the existence check passes exactly on the ids `get_all` lists, and `get_one` returns the listed record |
| `ApiBurp.ReadAfterInsert` | API/utils/main.py:146-149 | after an insert the record reads back under the old cursor (and under the returned id when auto-increment is on), and the listing is the old table plus that entry |
| `ApiBurp.ReadAfterUpdate` | API/utils/main.py:172-176 | after an update the id reads back as the merged record the call returned; every other id reads as before |
| `ApiBurp.DeleteForgetsOnlyThatId` | API/utils/main.py:158-160 | after a delete the id fails the existence check and every other id passes or fails it as before |
| `ApiBurp.SaveThenLoadRestores` | API/utils/main.py:229-267 | if `load_data` returns the table `save_snapshot` handed over, with `max_uid` its largest id, loading it under the same name restores the same tables and active table, keeps the invariant, and sets the cursor one past the largest saved id, which is never ahead of where it was and can be behind it |
| `ApiBurp.DeletedNewestIdIsReissuedAfterReload` | API/utils/main.py:263-265 | with auto-increment on, deleting the newest record, saving and loading the table back makes the next insert return the deleted id |
| `ApiBurp.DeleteThenCreateStartsAfresh` | API/utils/main.py:186-194 | after `delete_table`, creating the same name again yields an empty active table with the cursor at 0 |
| `ApiBurp.ShopSessionIds` | API/utils/main.py:131-149 | creating database `shop` and table `orders` and inserting two records returns ids 0 and 1 |
| `ApiBurp.ShopSessionEdits` | API/utils/main.py:152-176 | then updating record 0 with `qty` merges it, a save carries both records, and after deleting record 1 only record 0 is listed |
| `ApiTrace.IdsAreConsecutiveAndFresh` | API/utils/main.py:146-162 | with auto-increment on, any run of inserts, updates, deletes and reads returns the ids `c, c+1, …` from the cursor `c`, none already in the table, and keeps the invariant |
| `ApiTrace.IdsStrictlyIncrease` | API/utils/main.py:146-149 | the ids a run returns strictly increase, so none repeats |

## Left out

- `API/utils/persist.py` is not part of this model: its `check_exists`, `create_table_file`, `delete_file`, `save_data` and `load_data` appear only as the parameters described above, and `max_uid` is assumed to be the largest loaded key. Its settings class is taken to have the same defaults as the one in `burp/persist.py`.
- `ApiBurp.SaveSnapshot`: states what is handed to the unseen `save_data`, not the message it returns afterwards, since that depends only on `save_data`'s answer.
- `ApiBurp.LoadData`: does not state which arguments reach the unseen `load_data` (it receives the extension, `cur_dir` and the current encryption flag and cipher).
- The HTTP layer (`API/main.py`) and the global engine it holds are transport plumbing.
- Key generation, encryption and decryption (`API/utils/generator.py`): the key is a parameter and a cipher is the key it was built from; ciphertext is not modelled.
- The constructor's keyword loop (API/utils/main.py:24-27) rejects every string key; with no keywords it does nothing, which is what `ApiBurp.Init` models.
- `_append_data_to_db` in both engines calls a persister method that does not exist and is marked as not working.
- The older engine's `save_snapshot` calls `save_data`, which `burp/persist.py` does not define.
- `_create_db_instance` cannot fail with the persister of `burp/persist.py`; its `ConnectionError` path is not modelled.
- Printed messages are not modelled; returned messages are datatype constructors (`AlreadyOnDisk`, `NoSuchTable`, `NothingToSave`), and a raised exception is an error reason mapped to its Python class by `Results.Raised`.
- Python aliasing: `add_one` stores the caller's dict itself, so a later `update` also changes the caller's object; records here are values.
- JSON numbers are integers; floats are not modelled.
- File text is not modelled, only its decoded value: indentation, key order, and the duplicate key `add_data` writes when the file already held `str(id)` (decoding keeps the last one, which is the value the model stores).
- Paths are compared as raw strings: a trailing '/', a `.` or `..` component or a doubled '/' names a different entry of the file system map, whereas `os.path.exists("/w/shop/")` is true for the folder `/w/shop`. The lemmas that locate files assume tidy folders and plain names (`Paths.IsTidy`, `Paths.IsName`).
- `FileSystem.MakeDirs`: fails only where a file is in the way; permission errors and a full disk are not modelled.
- `FileSystem.Write`: fails only on a folder or a missing `dirname`; permission errors are not modelled.
- `Persist.AddData`: the `encoding` argument is resolved against the settings and then never used, because both `open` calls take the platform default; the model accepts it and ignores it.
- `ApiBurp.LoadData`: whether `Fernet(key)` accepts the key is the parameter `keyAccepted`; the model knows only that an accepted key has at least 43 characters (32 bytes need that many base64 characters) and does not decode base64.
- File permissions (commented out in the source) and the indent width.
- `create_database`'s `save` argument is unused by both engines.

=== FILE: api_burp.dfy ===
/** The in-memory engine behind the HTTP service (`API/utils/main.py`): one active table,
    an auto-increment cursor, optional encryption state, and a persister whose module
    (`API/utils/persist.py`) is not part of this model: every answer it gives the engine
    is a parameter of the operation that asks for it. */
module ApiBurp {
  import opened Results
  import opened Records
  import opened Paths
  import opened Persist

  /** `Fernet(key)`: only the key it was built from is kept. */
  datatype Cipher = Cipher(key: string)

  datatype Burp = Burp(
    settings: Settings,
    dbName: Option<string>,
    hasPersister: bool,            // db_instance is not None
    filepath: Option<Path>,
    tables: map<string, Table>,
    autoIncId: int,
    autoIncStatus: bool,
    tableName: Option<string>,
    curDir: Path,
    encryptionKey: Option<string>,
    encrypt: bool,
    cipher: Option<Cipher>)

  /** What `Burp()` starts from when the process runs in `cwd`. */
  function Init(cwd: AbsPath): (s: Burp)
    ensures s.tables == map[] && s.tableName == Some("") && s.autoIncId == 0 && !s.autoIncStatus
    ensures !s.hasPersister && s.dbName == None && !s.encrypt && s.encryptionKey == None && s.cipher == None
    ensures s.settings == Settings("data", ".json", "utf-8")
    ensures IsAbsolute(s.curDir) && s.curDir == Join(cwd, "utils") && s.filepath == None
  {
    Burp(NewSettings(None, None, None), None, false, None, map[], 0, false, Some(""),
         Join(cwd, "utils"), None, false, None)
  }

  /** The state after a call (including what was changed before an exception) and the call's result. */
  datatype Step<+T> = Step(next: Burp, result: Result<T>)

  /** A table is selected and registered. */
  predicate Active(s: Burp)
  {
    s.tableName.Some? && s.tableName.value in s.tables
  }

  function ActiveTable(s: Burp): Table
    requires Active(s)
  {
    s.tables[s.tableName.value]
  }

  /** Every id of the active table lies below the cursor. */
  predicate Valid(s: Burp)
  {
    Active(s) ==> forall id :: id in ActiveTable(s) ==> id < s.autoIncId
  }

  /** `create_database(db_name, encoding)`: a truthy encoding outside the allow-list raises
      `ValueError` before anything changes; otherwise settings, name and persister are set,
      and only then does an existing folder `cur_dir/db_name` raise `KeyError`.
      `existing` is the set of paths the persister's existence check reports. */
  function CreateDatabase(s: Burp, name: string, encoding: Option<string>, existing: set<Path>): (r: Step<()>)
    ensures Truthy(encoding) && encoding.value !in CommonEncodings ==>
              r == Step(s, Err(InvalidEncoding(encoding.value)))
    ensures r.result.Ok? <==> (!Truthy(encoding) || encoding.value in CommonEncodings)
                              && Join(s.curDir, name) !in existing
    ensures (!Truthy(encoding) || encoding.value in CommonEncodings) && Join(s.curDir, name) in existing ==>
              r.result == Err(DatabaseExists(name)) && Raised(r.result.error) == KeyError
    ensures !Truthy(encoding) || encoding.value in CommonEncodings ==>
              (&& r.next.settings.folder == name
               && r.next.settings.encoding == OrElse(encoding, s.settings.encoding)
               && r.next.settings.extension == s.settings.extension
               && r.next.dbName == Some(name) && r.next.hasPersister)
    ensures r.next.tables == s.tables && r.next.tableName == s.tableName && r.next.autoIncId == s.autoIncId
    ensures r.next.(settings := s.settings, dbName := s.dbName, hasPersister := s.hasPersister) == s
  {
    if Truthy(encoding) && encoding.value !in CommonEncodings then
      Step(s, Err(InvalidEncoding(encoding.value)))
    else
      var s1 := s.(settings := s.settings.(encoding := OrElse(encoding, s.settings.encoding), folder := name),
                   dbName := Some(name), hasPersister := true);
      if Join(s.curDir, name) in existing then Step(s1, Err(DatabaseExists(name)))
      else Step(s1, Ok(()))
  }

  /** What `create_table` reports without raising: it made the table, or it found a file in the way. */
  datatype CreateReply = Created | AlreadyOnDisk

  /** The path `create_table` probes: `cur_dir/table_name + extension`. */
  function ProbePath(s: Burp, name: string): Path
  {
    Join(s.curDir, name + s.settings.extension)
  }

  /** For a tidy `cur_dir` and a plain file name, the probed file sits directly in `cur_dir`,
      not in the database folder below it. */
  lemma ProbeSitsInCurDir(s: Burp, name: string)
    requires IsTidy(s.curDir) && IsName(name + s.settings.extension)
    ensures Parent(ProbePath(s, name)) == s.curDir
  {
    ParentOfJoin(s.curDir, name + s.settings.extension);
  }

  /** Whether the call would turn encryption on with the key `generate_key()` produced. */
  function Encrypted(s: Burp, encrypt: bool, freshKey: string): (r: Burp)
    ensures encrypt ==> r.encrypt && r.encryptionKey == Some(freshKey) && r.cipher == Some(Cipher(freshKey))
    ensures !encrypt ==> r == s
    ensures r.(encrypt := s.encrypt, encryptionKey := s.encryptionKey, cipher := s.cipher) == s
  {
    if encrypt then s.(encryptionKey := Some(freshKey), cipher := Some(Cipher(freshKey)), encrypt := true) else s
  }

  /** `create_table(table_name, extension, auto_increment, encrypt)`: a registered name
      raises `KeyError` with nothing changed. Otherwise the name is registered empty,
      auto-increment and encryption are switched on as asked, and then: no persister raises,
      a probe hit returns a message, and otherwise the extension override is stored, the
      table becomes active and the persister writes its file. `freshKey` is what
      `generate_key()` returned, `existing` the paths the persister reports, and `created`
      the path its `create_table_file` returned (`None` when it raised). */
  function CreateTable(s: Burp, name: string, extension: Option<string>, autoIncrement: bool, encrypt: bool,
                       freshKey: string, existing: set<Path>, created: Option<Path>): (r: Step<CreateReply>)
    ensures name in s.tables <==> r.result == Err(TableExists(name))
    ensures name in s.tables ==> r.next == s && Raised(r.result.error) == KeyError
    ensures name !in s.tables ==> (&& r.next.tables == s.tables[name := map[]]
                                   && r.next.autoIncStatus == (s.autoIncStatus || autoIncrement)
                                   && (encrypt ==> r.next.encrypt && r.next.encryptionKey == Some(freshKey)))
    ensures r.next.autoIncId == s.autoIncId
    ensures name !in s.tables && !s.hasPersister ==> r.result == Err(NoPersister)
    ensures r.result == Ok(AlreadyOnDisk) <==> name !in s.tables && s.hasPersister && ProbePath(s, name) in existing
    ensures r.result == Ok(AlreadyOnDisk) ==> r.next.tableName == s.tableName && r.next.settings == s.settings
    ensures r.result == Ok(Created) <==> (&& name !in s.tables && s.hasPersister
                                         && ProbePath(s, name) !in existing && created.Some?)
    ensures r.result == Ok(Created) ==> (&& r.next.tableName == Some(name)
                                         && r.next.filepath == Some(created.value)
                                         && r.next.settings.extension == OrElse(extension, s.settings.extension))
    ensures name !in s.tables && s.hasPersister && ProbePath(s, name) !in existing && created.None? ==>
              (&& r.result == Err(PersisterFailed) && Raised(r.result.error) == Exception
               && r.next.tableName == Some(name) && r.next.filepath == s.filepath
               && r.next.settings.extension == OrElse(extension, s.settings.extension))
    ensures r.result != Ok(Created) ==> r.next.filepath == s.filepath
    ensures r.next.settings.(extension := s.settings.extension) == s.settings
    ensures name !in s.tables && encrypt ==> r.next.cipher == Some(Cipher(freshKey))
    ensures !encrypt ==> (&& r.next.encrypt == s.encrypt && r.next.encryptionKey == s.encryptionKey
                          && r.next.cipher == s.cipher)
    ensures r.next.dbName == s.dbName && r.next.hasPersister == s.hasPersister && r.next.curDir == s.curDir
    ensures r.result == Err(NoPersister) || r.result == Ok(AlreadyOnDisk) ==>
              r.next.(tables := s.tables, autoIncStatus := s.autoIncStatus, encrypt := s.encrypt,
                      encryptionKey := s.encryptionKey, cipher := s.cipher) == s
  {
    if name in s.tables then
      Step(s, Err(TableExists(name)))
    else
      var s1 := Encrypted(s.(tables := s.tables[name := map[]], autoIncStatus := s.autoIncStatus || autoIncrement),
                          encrypt, freshKey);
      if !s1.hasPersister then
        Step(s1, Err(NoPersister))
      else if ProbePath(s, name) in existing then
        Step(s1, Ok(AlreadyOnDisk))
      else
        var s2 := s1.(settings := s1.settings.(extension := OrElse(extension, s1.settings.extension)),
                      tableName := Some(name));
        match created
        case None => Step(s2, Err(PersisterFailed))
        case Some(path) => Step(s2.(filepath := Some(path)), Ok(Created))
  }

  /** `_auto_increment_id`: the cursor moves by one exactly when auto-increment is on. */
  function AutoIncrement(s: Burp): (r: Burp)
    ensures s.autoIncStatus ==> r.autoIncId == s.autoIncId + 1
    ensures !s.autoIncStatus ==> r.autoIncId == s.autoIncId
    ensures r.(autoIncId := s.autoIncId) == s
  {
    if s.autoIncStatus then s.(autoIncId := s.autoIncId + 1) else s
  }

  /** `add_one(data)`: `KeyError` when no table name is set or it is not registered;
      otherwise `data` goes under the cursor, the cursor advances, and the result is the
      advanced cursor minus one. */
  function AddOne(s: Burp, data: Record): (r: Step<int>)
    ensures r.result.Err? <==> !Active(s)
    ensures r.result.Err? ==> r.next == s && Raised(r.result.error) == KeyError
    ensures r.result.Ok? ==>
              var t := s.tableName.value;
              && Active(r.next) && r.next.tableName == s.tableName
              && r.next.tables.Keys == s.tables.Keys
              && ActiveTable(r.next).Keys == ActiveTable(s).Keys + {s.autoIncId}
              && ActiveTable(r.next)[s.autoIncId] == data
              && (forall id :: id in ActiveTable(s) && id != s.autoIncId ==>
                                 ActiveTable(r.next)[id] == ActiveTable(s)[id])
              && (forall n :: n in s.tables && n != t ==> r.next.tables[n] == s.tables[n])
              && r.result.value == r.next.autoIncId - 1
    ensures r.result.Ok? && s.autoIncStatus ==> r.result.value == s.autoIncId && r.next.autoIncId == s.autoIncId + 1
    ensures r.result.Ok? && !s.autoIncStatus ==> r.result.value == s.autoIncId - 1 && r.next.autoIncId == s.autoIncId
    ensures r.next.(tables := s.tables, autoIncId := s.autoIncId) == s
  {
    if s.tableName.None? then
      Step(s, Err(NoActiveTable))
    else if s.tableName.value !in s.tables then
      Step(s, Err(UnknownTable(s.tableName.value)))
    else
      var t := s.tableName.value;
      var advanced := AutoIncrement(s.(tables := s.tables[t := s.tables[t][s.autoIncId := data]]));
      Step(advanced, Ok(advanced.autoIncId - 1))
  }

  /** `_table_name_id_exists(id)`: `KeyError` when the name is `""`, is `None` (the lookup
      `tables[None]` fails), is not registered, or the id is missing. */
  function CheckId(s: Burp, id: int): (r: Result<()>)
    ensures r.Ok? <==> Active(s) && s.tableName != Some("") && id in ActiveTable(s)
    ensures r.Err? ==> Raised(r.error) == KeyError
  {
    if s.tableName == Some("") || s.tableName.None? then Err(NoActiveTable)
    else if s.tableName.value !in s.tables then Err(UnknownTable(s.tableName.value))
    else if id !in s.tables[s.tableName.value] then Err(UnknownId(id))
    else Ok(())
  }

  /** `delete(id)`: the id leaves the active table; the cursor and everything else stay. */
  function Delete(s: Burp, id: int): (r: Step<()>)
    ensures r.result.Err? <==> CheckId(s, id).Err?
    ensures r.result.Err? ==> r.next == s && Raised(r.result.error) == KeyError
    ensures r.result.Ok? ==>
              && Active(r.next) && r.next.tableName == s.tableName
              && id in ActiveTable(s)
              && r.next.tables.Keys == s.tables.Keys
              && ActiveTable(r.next).Keys == ActiveTable(s).Keys - {id}
              && (forall k :: k in ActiveTable(r.next) ==> ActiveTable(r.next)[k] == ActiveTable(s)[k])
              && (forall n :: n in s.tables && n != s.tableName.value ==> r.next.tables[n] == s.tables[n])
    ensures r.next.(tables := s.tables) == s
  {
    match CheckId(s, id)
    case Err(e) => Step(s, Err(e))
    case Ok(_) =>
      var t := s.tableName.value;
      Step(s.(tables := s.tables[t := s.tables[t] - {id}]), Ok(()))
  }

  /** `update(id, data)`: every field of `data` overwrites or joins the stored record, the
      other fields stay, and the merged record is returned. */
  function Update(s: Burp, id: int, data: Record): (r: Step<Record>)
    ensures r.result.Err? <==> CheckId(s, id).Err?
    ensures r.result.Err? ==> r.next == s && Raised(r.result.error) == KeyError
    ensures r.result.Ok? ==>
              && Active(r.next) && r.next.tableName == s.tableName
              && r.result.value == Merge(ActiveTable(s)[id], data)
              && r.next.tables.Keys == s.tables.Keys
              && ActiveTable(r.next).Keys == ActiveTable(s).Keys
              && ActiveTable(r.next)[id] == r.result.value
              && (forall k :: k in ActiveTable(s) && k != id ==> ActiveTable(r.next)[k] == ActiveTable(s)[k])
              && (forall n :: n in s.tables && n != s.tableName.value ==> r.next.tables[n] == s.tables[n])
    ensures r.next.(tables := s.tables) == s
  {
    match CheckId(s, id)
    case Err(e) => Step(s, Err(e))
    case Ok(_) =>
      var t := s.tableName.value;
      var merged := Merge(s.tables[t][id], data);
      Step(s.(tables := s.tables[t := s.tables[t][id := merged]]), Ok(merged))
  }

  /** `get_one(id)`: the stored record, or the `KeyError` of the existence check. */
  function GetOne(s: Burp, id: int): (r: Result<Record>)
    ensures r.Ok? <==> CheckId(s, id).Ok?
    ensures r.Ok? ==> r.value == ActiveTable(s)[id]
    ensures r.Err? ==> Raised(r.error) == KeyError
  {
    match CheckId(s, id)
    case Err(e) => Err(e)
    case Ok(_) => Ok(s.tables[s.tableName.value][id])
  }

  /** What `get_all` returns: the active table, or the message that it does not exist. */
  datatype Listing = Rows(table: Table) | NoSuchTable

  /** `get_all()`: never raises. */
  function GetAll(s: Burp): (r: Listing)
    ensures r.Rows? <==> Active(s) && s.tableName != Some("")
    ensures r.Rows? ==> r.table == ActiveTable(s)
  {
    if s.tableName.None? || s.tableName.value !in s.tables || s.tableName.value == "" then NoSuchTable
    else Rows(s.tables[s.tableName.value])
  }

  /** `delete_table()`: with a table name set, the persister removes the file (`removal` is
      how that went), the table leaves `tables`, and the cursor, auto-increment and
      encryption state return to their unset values. */
  function DeleteTable(s: Burp, removal: Result<()>): (r: Step<()>)
    ensures r.result.Ok? <==> s.hasPersister && Active(s) && removal.Ok?
    ensures s.tableName.None? ==> r.result == Err(NoActiveTable)
    ensures r.result.Err? ==> r.next == s
    ensures r.result.Ok? ==> (&& r.next.tables == s.tables - {s.tableName.value}
                              && r.next.tableName == None
                              && !r.next.autoIncStatus && r.next.autoIncId == 0
                              && r.next.encryptionKey == None && r.next.cipher == None && !r.next.encrypt
                              && r.next.settings == s.settings && r.next.dbName == s.dbName
                              && r.next.hasPersister)
    ensures r.result.Ok? ==> r.next.(tables := s.tables, tableName := s.tableName, autoIncStatus := s.autoIncStatus,
                                     autoIncId := s.autoIncId, encryptionKey := s.encryptionKey,
                                     cipher := s.cipher, encrypt := s.encrypt) == s
  {
    if s.tableName.None? then Step(s, Err(NoActiveTable))
    else if !s.hasPersister then Step(s, Err(NoPersister))
    else if removal.Err? then Step(s, Err(removal.error))
    else if s.tableName.value !in s.tables then Step(s, Err(UnknownTable(s.tableName.value)))
    else
      Step(s.(tables := s.tables - {s.tableName.value}, tableName := None, autoIncStatus := false,
              autoIncId := 0, cipher := None, encryptionKey := None, encrypt := false), Ok(()))
  }

  /** What `save_snapshot` does without raising: nothing (no table name), or hand the
      persister's `save_data` the whole active table with the encryption state. */
  datatype SaveReply =
    | NothingToSave
    | SaveRequest(table: Table, tableName: string, dbName: Option<string>, curDir: Path,
                  extension: string, encrypt: bool, cipher: Option<Cipher>)

  /** `save_snapshot()`: the request always carries the full current table, never a part. */
  function SaveSnapshot(s: Burp): (r: Result<SaveReply>)
    ensures s.tableName == Some("") <==> r == Ok(NothingToSave)
    ensures r.Ok? && r.value.SaveRequest? <==> Active(s) && s.tableName != Some("") && s.hasPersister
    ensures r.Ok? && r.value.SaveRequest? ==> (&& r.value.table == ActiveTable(s)
                                               && r.value.tableName == s.tableName.value
                                               && r.value.encrypt == s.encrypt && r.value.cipher == s.cipher
                                               && r.value.extension == s.settings.extension
                                               && r.value.dbName == s.dbName && r.value.curDir == s.curDir)
    ensures r.Err? ==> Raised(r.error) in {KeyError, AttributeError}
  {
    if s.tableName == Some("") then Ok(NothingToSave)
    else if s.tableName.None? then Err(NoActiveTable)
    else if s.tableName.value !in s.tables then Err(UnknownTable(s.tableName.value))
    else if !s.hasPersister then Err(NoPersister)
    else Ok(SaveRequest(s.tables[s.tableName.value], s.tableName.value, s.dbName, s.curDir,
                        s.settings.extension, s.encrypt, s.cipher))
  }

  /** What the persister's `load_data` returns: the decoded table and its `max_uid`. */
  datatype Snapshot = Snapshot(data: Table, maxUid: int)

  /** The assumption this model makes of the unseen `load_data`: `max_uid` is the largest id. */
  predicate MaxUidIsLargest(snap: Snapshot)
  {
    && (forall id :: id in snap.data ==> id <= snap.maxUid)
    && (snap.data != map[] ==> snap.maxUid in snap.data)
  }

  /** `load_data(db_name, table_name, encrypt, key)`: a persister is built if missing; a
      requested key is recorded and then handed to `Fernet`, which raises `ValueError` on a
      key it rejects, after the flag and the key are set and before the load; a successful
      load (`loaded`) makes the table active with auto-increment on and the cursor at
      `max_uid + 1`. `keyAccepted` is whether `Fernet(key)` accepts the key: it needs 32 bytes
      of url-safe base64, and every 4 characters decode to at most 3 bytes, so an accepted
      key has at least 43 characters (the default key `""` is always rejected). */
  function LoadData(s: Burp, dbName: string, tableName: string, encrypt: bool, key: string, keyAccepted: bool,
                    loaded: Result<Snapshot>): (r: Step<()>)
    requires keyAccepted ==> |key| >= 43
    ensures r.next.hasPersister && r.next.settings == s.settings && r.next.curDir == s.curDir
    ensures encrypt ==> r.next.encrypt && r.next.encryptionKey == Some(key)
    ensures encrypt && keyAccepted ==> r.next.cipher == Some(Cipher(key))
    ensures !encrypt ==> (&& r.next.encrypt == s.encrypt && r.next.encryptionKey == s.encryptionKey
                          && r.next.cipher == s.cipher)
    ensures encrypt && !keyAccepted ==> (&& r.result == Err(InvalidKey) && Raised(r.result.error) == ValueError
                                         && r.next.cipher == s.cipher
                                         && r.next.tables == s.tables && r.next.tableName == s.tableName
                                         && r.next.autoIncId == s.autoIncId
                                         && r.next.autoIncStatus == s.autoIncStatus
                                         && r.next.dbName == s.dbName)
    ensures r.result.Ok? <==> (!encrypt || keyAccepted) && loaded.Ok?
    ensures (!encrypt || keyAccepted) && loaded.Err? ==>
              (&& r.next.tables == s.tables && r.next.tableName == s.tableName
               && r.next.autoIncId == s.autoIncId && r.result == Err(loaded.error))
    ensures (!encrypt || keyAccepted) && loaded.Ok? ==>
              (&& r.next.autoIncStatus && r.next.autoIncId == loaded.value.maxUid + 1
               && r.next.tables == s.tables[tableName := loaded.value.data]
               && r.next.tableName == Some(tableName) && Active(r.next)
               && ActiveTable(r.next) == loaded.value.data
               && r.next.dbName == Some(dbName))
    ensures r.result.Err? ==>
              r.next.(hasPersister := s.hasPersister, encrypt := s.encrypt, encryptionKey := s.encryptionKey,
                      cipher := s.cipher) == s
    ensures r.next.(hasPersister := s.hasPersister, encrypt := s.encrypt, encryptionKey := s.encryptionKey,
                    cipher := s.cipher, autoIncStatus := s.autoIncStatus, autoIncId := s.autoIncId,
                    tables := s.tables, tableName := s.tableName, dbName := s.dbName) == s
  {
    var s1 := s.(hasPersister := true);
    if encrypt && !keyAccepted then
      Step(s1.(encrypt := true, encryptionKey := Some(key)), Err(InvalidKey))
    else
      var s2 := Encrypted(s1, encrypt, key);
      match loaded
      case Err(e) => Step(s2, Err(e))
      case Ok(snap) =>
        Step(s2.(autoIncStatus := true, autoIncId := snap.maxUid + 1, tables := s2.tables[tableName := snap.data],
                 tableName := Some(tableName), dbName := Some(dbName)), Ok(()))
  }

  // ---- Properties of the engine ----

  lemma InitValid(cwd: AbsPath)
    ensures Valid(Init(cwd)) && !Active(Init(cwd))
  {
  }

  /** With auto-increment on, `add_one` returns the cursor, stores under an id the table
      does not hold yet, and keeps every id below the advanced cursor. */
  lemma AddOneFresh(s: Burp, data: Record)
    requires Valid(s) && s.autoIncStatus && Active(s)
    ensures var r := AddOne(s, data);
            && r.result == Ok(s.autoIncId)
            && s.autoIncId !in ActiveTable(s)
            && r.next.autoIncId == s.autoIncId + 1
            && Valid(r.next)
  {
    var r := AddOne(s, data);
    forall id | id in ActiveTable(r.next)
      ensures id < r.next.autoIncId
    {
      if id != s.autoIncId {
        assert id in ActiveTable(s);
      }
    }
  }

  /** Two successive `add_one` calls with auto-increment on return strictly increasing ids. */
  lemma AddOneIdsIncrease(s: Burp, d1: Record, d2: Record)
    requires s.autoIncStatus && Active(s)
    ensures var r1 := AddOne(s, d1);
            var r2 := AddOne(r1.next, d2);
            r1.result.Ok? && r2.result.Ok? && r1.result.value < r2.result.value
  {
  }

  lemma DeleteKeepsValid(s: Burp, id: int)
    requires Valid(s)
    ensures var r := Delete(s, id);
            Valid(r.next) && r.next.autoIncId == s.autoIncId
  {
    var r := Delete(s, id);
    if r.result.Ok? {
      forall k | k in ActiveTable(r.next)
        ensures k < r.next.autoIncId
      {
        assert k in ActiveTable(s);
      }
    }
  }

  lemma UpdateKeepsValid(s: Burp, id: int, data: Record)
    requires Valid(s)
    ensures Valid(Update(s, id, data).next)
  {
    var r := Update(s, id, data);
    if r.result.Ok? {
      forall k | k in ActiveTable(r.next)
        ensures k < r.next.autoIncId
      {
        assert k in ActiveTable(s);
      }
    }
  }

  /** Creating a table either leaves the active table alone or activates an empty one. */
  lemma CreateTableKeepsValid(s: Burp, name: string, extension: Option<string>, autoIncrement: bool,
                              encrypt: bool, freshKey: string, existing: set<Path>, created: Option<Path>)
    requires Valid(s)
    ensures Valid(CreateTable(s, name, extension, autoIncrement, encrypt, freshKey, existing, created).next)
  {
    var r := CreateTable(s, name, extension, autoIncrement, encrypt, freshKey, existing, created);
    if Active(r.next) && r.next.tableName != Some(name) {
      assert r.next.tableName == s.tableName;
      assert ActiveTable(r.next) == ActiveTable(s);
    }
  }

  lemma DeleteTableKeepsValid(s: Burp, removal: Result<()>)
    requires Valid(s)
    ensures Valid(DeleteTable(s, removal).next)
  {
  }

  /** Under the stated assumption on `max_uid`, loading puts the cursor exactly one past the
      largest loaded id (or anywhere above an empty table), so no loaded id is handed out again. */
  lemma LoadEstablishesValid(s: Burp, dbName: string, tableName: string, encrypt: bool, key: string,
                             keyAccepted: bool, snap: Snapshot)
    requires MaxUidIsLargest(snap) && (keyAccepted ==> |key| >= 43)
    ensures var r := LoadData(s, dbName, tableName, encrypt, key, keyAccepted, Ok(snap));
            && (!encrypt || keyAccepted ==>
                  && Valid(r.next)
                  && (snap.data != map[] ==> r.next.autoIncId - 1 in ActiveTable(r.next)))
            && (Valid(s) ==> Valid(r.next))
  {
    var r := LoadData(s, dbName, tableName, encrypt, key, keyAccepted, Ok(snap));
    if encrypt && !keyAccepted && Active(r.next) {
      assert ActiveTable(r.next) == ActiveTable(s);
    }
  }

  lemma CreateDatabaseKeepsValid(s: Burp, name: string, encoding: Option<string>, existing: set<Path>)
    requires Valid(s)
    ensures Valid(CreateDatabase(s, name, encoding, existing).next)
  {
    var r := CreateDatabase(s, name, encoding, existing);
    if Active(r.next) {
      assert ActiveTable(r.next) == ActiveTable(s);
    }
  }

  /** `get_one` succeeds exactly on the ids `get_all` lists, and returns what it lists. */
  lemma GetOneAgreesWithGetAll(s: Burp, id: int)
    ensures CheckId(s, id).Ok? <==> GetAll(s).Rows? && id in GetAll(s).table
    ensures GetOne(s, id).Ok? ==> GetOne(s, id).value == GetAll(s).table[id]
  {
  }

  /** After `add_one` the record is read back under the id it was stored at, and the
      listing is the old table with that one entry added. */
  lemma ReadAfterInsert(s: Burp, data: Record)
    requires Active(s) && s.tableName != Some("")
    ensures var r := AddOne(s, data);
            && GetOne(r.next, s.autoIncId) == Ok(data)
            && GetAll(r.next) == Rows(ActiveTable(s)[s.autoIncId := data])
            && (s.autoIncStatus ==> GetOne(r.next, r.result.value) == Ok(data))
  {
    var r := AddOne(s, data);
    assert ActiveTable(r.next) == ActiveTable(s)[s.autoIncId := data];
  }

  /** After `update` the id reads back as the merged record; every other id reads as before. */
  lemma ReadAfterUpdate(s: Burp, id: int, data: Record, other: int)
    requires CheckId(s, id).Ok?
    ensures var r := Update(s, id, data);
            && GetOne(r.next, id) == Ok(Merge(ActiveTable(s)[id], data)) == r.result
            && (other != id ==> GetOne(r.next, other) == GetOne(s, other))
  {
  }

  /** After `delete` the id fails the existence check; every other id passes or fails it as before. */
  lemma DeleteForgetsOnlyThatId(s: Burp, id: int, other: int)
    requires CheckId(s, id).Ok?
    ensures var r := Delete(s, id);
            && CheckId(r.next, id) == Err(UnknownId(id)) && GetOne(r.next, id).Err?
            && (other != id ==> CheckId(r.next, other) == CheckId(s, other)
                                && GetOne(r.next, other) == GetOne(s, other))
  {
  }

  /** If the persister's `load_data` hands back exactly the table `save_snapshot` gave
      `save_data`, with `max_uid` its largest id, loading it again under the same name
      reproduces the active table, keeps every other table, keeps the invariant, and puts the
      cursor one past the largest saved id: never ahead of where it was, possibly behind. */
  lemma SaveThenLoadRestores(s: Burp, dbName: string, encrypt: bool, key: string, keyAccepted: bool, snap: Snapshot)
    requires Valid(s) && (keyAccepted ==> |key| >= 43) && (!encrypt || keyAccepted)
    requires SaveSnapshot(s).Ok? && SaveSnapshot(s).value.SaveRequest?
    requires snap.data == SaveSnapshot(s).value.table && MaxUidIsLargest(snap)
    ensures var r := LoadData(s, dbName, SaveSnapshot(s).value.tableName, encrypt, key, keyAccepted, Ok(snap));
            && r.result.Ok?
            && r.next.tableName == s.tableName && r.next.tables == s.tables
            && Active(r.next) && ActiveTable(r.next) == ActiveTable(s)
            && Valid(r.next)
            && (ActiveTable(s) != map[] ==> r.next.autoIncId - 1 in ActiveTable(s) && r.next.autoIncId <= s.autoIncId)
  {
    LoadEstablishesValid(s, dbName, SaveSnapshot(s).value.tableName, encrypt, key, keyAccepted, snap);
    if ActiveTable(s) != map[] {
      assert snap.maxUid in ActiveTable(s);
    }
  }

  /** Loading resets the cursor from the saved table, not from the ids ever handed out:
      with auto-increment on, deleting the newest record, saving and loading the table back
      hands that record's id out again on the next insert. */
  lemma DeletedNewestIdIsReissuedAfterReload(s: Burp, dbName: string, snap: Snapshot, data: Record)
    requires Valid(s) && Active(s) && s.tableName != Some("") && s.hasPersister && s.autoIncStatus
    requires s.autoIncId - 1 in ActiveTable(s) && s.autoIncId - 2 in ActiveTable(s)
    requires var d := Delete(s, s.autoIncId - 1);
             && SaveSnapshot(d.next).Ok? && SaveSnapshot(d.next).value.SaveRequest?
             && snap.data == SaveSnapshot(d.next).value.table && MaxUidIsLargest(snap)
    ensures var d := Delete(s, s.autoIncId - 1);
            var l := LoadData(d.next, dbName, s.tableName.value, false, "", false, Ok(snap));
            var a := AddOne(l.next, data);
            && d.result.Ok? && l.result.Ok?
            && a.result == Ok(s.autoIncId - 1)
  {
    var m := s.autoIncId - 1;
    var d := Delete(s, m);
    assert m - 1 in snap.data && m !in snap.data;
    assert snap.maxUid == m - 1 by {
      assert snap.maxUid in snap.data;
      assert snap.maxUid in ActiveTable(s);
    }
  }

  /** Tearing a table down and creating it again yields an empty, active table with the
      cursor back at 0. */
  lemma DeleteThenCreateStartsAfresh(s: Burp, extension: Option<string>, encrypt: bool, freshKey: string,
                                      existing: set<Path>, created: Option<Path>)
    requires Active(s) && s.hasPersister
    requires created.Some?
    ensures var name := s.tableName.value;
            var d := DeleteTable(s, Ok(()));
            var c := CreateTable(d.next, name, extension, true, encrypt, freshKey, existing, created);
            && d.result.Ok?
            && (ProbePath(d.next, name) !in existing ==>
                  && c.result == Ok(Created)
                  && Active(c.next) && ActiveTable(c.next) == map[]
                  && c.next.autoIncId == 0 && c.next.autoIncStatus)
  {
  }

  /** The state of a session on database `shop` and table `orders` after two inserts. */
  function ShopWithTwoOrders(cwd: AbsPath, orders: Path): Burp
  {
    var db := CreateDatabase(Init(cwd), "shop", None, {});
    var t := CreateTable(db.next, "orders", None, true, false, "", {}, Some(orders));
    var a := AddOne(t.next, map["item" := JString("pen")]);
    AddOne(a.next, map["item" := JString("cup")]).next
  }

  /** Creating database `shop` and table `orders`, then inserting two records, hands out
      the ids 0 and 1. */
  lemma ShopSessionIds(cwd: AbsPath, orders: Path)
    ensures var db := CreateDatabase(Init(cwd), "shop", None, {});
            var t := CreateTable(db.next, "orders", None, true, false, "", {}, Some(orders));
            var a := AddOne(t.next, map["item" := JString("pen")]);
            var b := AddOne(a.next, map["item" := JString("cup")]);
            && db.result.Ok? && t.result == Ok(Created)
            && a.result == Ok(0) && b.result == Ok(1)
            && b.next == ShopWithTwoOrders(cwd, orders)
            && b.next.tableName == Some("orders") && b.next.hasPersister
            && Active(b.next) && ActiveTable(b.next) == map[0 := map["item" := JString("pen")], 1 := map["item" := JString("cup")]]
  {
    var db := CreateDatabase(Init(cwd), "shop", None, {});
    assert db.result.Ok?;
    var t := CreateTable(db.next, "orders", None, true, false, "", {}, Some(orders));
    assert t.result == Ok(Created);
    assert Active(t.next) && ActiveTable(t.next) == map[] && t.next.autoIncId == 0 && t.next.autoIncStatus;
    var a := AddOne(t.next, map["item" := JString("pen")]);
    assert a.result == Ok(0);
  }

  /** Continuing that session: the update merges `qty` into record 0, a save hands over both
      records, and after deleting record 1 only record 0 is listed. */
  lemma ShopSessionEdits(cwd: AbsPath, orders: Path)
    ensures var pen, cup := map["item" := JString("pen")], map["item" := JString("cup")];
            var penWithQty := map["item" := JString("pen"), "qty" := JNumber(3)];
            var u := Update(ShopWithTwoOrders(cwd, orders), 0, map["qty" := JNumber(3)]);
            var d := Delete(u.next, 1);
            && u.result == Ok(penWithQty)
            && SaveSnapshot(u.next).Ok? && SaveSnapshot(u.next).value.table == map[0 := penWithQty, 1 := cup]
            && d.result.Ok?
            && GetAll(d.next) == Rows(map[0 := penWithQty])
  {
    ShopSessionIds(cwd, orders);
    EditTwoOrders(ShopWithTwoOrders(cwd, orders));
  }

  /** The edits of that session, on any state whose active table `orders` holds the two records. */
  lemma EditTwoOrders(b: Burp)
    requires b.tableName == Some("orders") && b.hasPersister && Active(b)
    requires ActiveTable(b) == map[0 := map["item" := JString("pen")], 1 := map["item" := JString("cup")]]
    ensures var pen, cup := map["item" := JString("pen")], map["item" := JString("cup")];
            var penWithQty := map["item" := JString("pen"), "qty" := JNumber(3)];
            var u := Update(b, 0, map["qty" := JNumber(3)]);
            var d := Delete(u.next, 1);
            && u.result == Ok(penWithQty)
            && SaveSnapshot(u.next).Ok? && SaveSnapshot(u.next).value.table == map[0 := penWithQty, 1 := cup]
            && d.result.Ok?
            && GetAll(d.next) == Rows(map[0 := penWithQty])
  {
    var cup := map["item" := JString("cup")];
    var penWithQty := map["item" := JString("pen"), "qty" := JNumber(3)];
    var u := Update(b, 0, map["qty" := JNumber(3)]);
    PenGetsQty();
    assert u.result == Ok(penWithQty);
    assert ActiveTable(u.next) == map[0 := penWithQty, 1 := cup];
    var d := Delete(u.next, 1);
    assert ActiveTable(d.next) == map[0 := penWithQty];
  }

  lemma PenGetsQty()
    ensures Merge(map["item" := JString("pen")], map["qty" := JNumber(3)])
            == map["item" := JString("pen"), "qty" := JNumber(3)]
  {
    assert "item" != "qty" by { assert "item"[0] != "qty"[0]; }
  }
}

=== FILE: api_trace.dfy ===
/** Runs of record operations on the API engine's active table, and the ids they hand out. */
module ApiTrace {
  import opened Results
  import opened Records
  import opened ApiBurp

  /** The calls that touch records once a table is active. */
  datatype RecordOp = Insert(data: Record) | Change(id: int, data: Record) | Remove(id: int) | Fetch(id: int)

  /** The state after a run and the ids the successful inserts returned, in order. */
  datatype Run = Run(last: Burp, ids: seq<int>)

  /** One call: `add_one`, `update`, `delete` or `get_one`. */
  function Apply(s: Burp, op: RecordOp): (r: Run)
    ensures |r.ids| <= 1
    ensures op.Insert? && Active(s) ==> |r.ids| == 1
  {
    match op
    case Insert(d) =>
      var st := AddOne(s, d);
      Run(st.next, if st.result.Ok? then [st.result.value] else [])
    case Change(id, d) => Run(Update(s, id, d).next, [])
    case Remove(id) => Run(Delete(s, id).next, [])
    case Fetch(id) => Run(s, [])
  }

  /** The calls of `ops`, one after the other, from `s`. */
  function Execute(s: Burp, ops: seq<RecordOp>): Run
    decreases |ops|
  {
    if ops == [] then Run(s, [])
    else
      var first := Apply(s, ops[0]);
      var rest := Execute(first.last, ops[1..]);
      Run(rest.last, first.ids + rest.ids)
  }

  /** With auto-increment on, any mix of inserts, updates, deletes and reads hands out the
      ids `c, c+1, c+2, ...` from the cursor `c`, in that order: none repeats, none was in
      the table before, and the cursor ends just past the last one. */
  lemma {:induction false} IdsAreConsecutiveAndFresh(s: Burp, ops: seq<RecordOp>)
    requires s.autoIncStatus && Active(s) && Valid(s)
    ensures var r := Execute(s, ops);
            && (forall i :: 0 <= i < |r.ids| ==> r.ids[i] == s.autoIncId + i)
            && (forall i :: 0 <= i < |r.ids| ==> r.ids[i] !in ActiveTable(s))
            && r.last.autoIncId == s.autoIncId + |r.ids|
            && r.last.autoIncStatus && Active(r.last) && Valid(r.last)
            && r.last.tableName == s.tableName
    decreases |ops|
  {
    if ops != [] {
      var first := Apply(s, ops[0]);
      match ops[0] {
        case Insert(d) => AddOneFresh(s, d);
        case Change(id, d) => UpdateKeepsValid(s, id, d);
        case Remove(id) => DeleteKeepsValid(s, id);
        case Fetch(id) =>
      }
      assert first.last.autoIncId == s.autoIncId + |first.ids|;
      assert first.ids != [] ==> first.ids[0] == s.autoIncId;
      IdsAreConsecutiveAndFresh(first.last, ops[1..]);
      var rest := Execute(first.last, ops[1..]);
      var r := Execute(s, ops);
      assert r.ids == first.ids + rest.ids;
      forall i | 0 <= i < |r.ids|
        ensures r.ids[i] == s.autoIncId + i && r.ids[i] !in ActiveTable(s)
      {
        if i >= |first.ids| {
          assert r.ids[i] == rest.ids[i - |first.ids|];
        }
      }
    }
  }

  /** Hence the ids a run returns strictly increase. */
  lemma IdsStrictlyIncrease(s: Burp, ops: seq<RecordOp>)
    requires s.autoIncStatus && Active(s) && Valid(s)
    ensures var ids := Execute(s, ops).ids;
            forall i, j :: 0 <= i < j < |ids| ==> ids[i] < ids[j]
  {
    IdsAreConsecutiveAndFresh(s, ops);
  }
}

=== FILE: filesystem.dfy ===
/** An abstract file system: each existing path is a folder or a file. A file's bytes are
    text that decodes as JSON, text that does not (a truncated write, a base64 token), or
    bytes that are not text in the platform encoding at all (a pickle, Latin-1 text). */
module FileSystem {
  import opened Results
  import opened Records
  import opened Paths

  datatype Content = Parsed(value: Json) | Garbled | Undecodable

  datatype Node = Dir | File(content: Content)

  /** Absolute path to what sits there. */
  type Fs = map<Path, Node>

  predicate IsDir(fs: Fs, p: Path)
  {
    p in fs && fs[p].Dir?
  }

  /** `path` holds a JSON file whose top-level value is the object `m`. */
  predicate HoldsObject(fs: Fs, path: Path, m: map<string, Json>)
  {
    path in fs && fs[path] == File(Parsed(JObject(m)))
  }

  /** `with open(path, 'w') as f: <write content>`: a folder cannot be opened, and a new file
      needs the folder `os.path.dirname(path)` to exist. */
  function Write(fs: Fs, path: Path, content: Content): (r: Result<Fs>)
    ensures r.Ok? <==> (path in fs && fs[path].File?) || (path !in fs && IsDir(fs, Parent(path)))
    ensures r.Err? ==> r.error == IOError(path)
    ensures r.Ok? ==> r.value.Keys == fs.Keys + {path}
    ensures r.Ok? ==> r.value[path] == File(content)
    ensures r.Ok? ==> forall q :: q in fs && q != path ==> r.value[q] == fs[q]
  {
    if path in fs && fs[path].Dir? then Err(IOError(path))
    else if path !in fs && !IsDir(fs, Parent(path)) then Err(IOError(path))
    else Ok(fs[path := File(content)])
  }

  /** `os.makedirs(folder, exist_ok=True)`: an existing folder is fine; otherwise the missing
      folders above it are made first, from the top down, and the first one whose parent is
      a file fails (a file at `folder` itself fails too). Nothing is made before a failure,
      because the topmost missing folder is the first one attempted. */
  function MakeDirs(fs: Fs, folder: Path): (r: Result<Fs>)
    ensures folder in fs ==> (r.Ok? <==> fs[folder].Dir?)
    ensures folder !in fs && IsDir(fs, Parent(folder)) ==> r.Ok?
    ensures folder !in fs && Parent(folder) in fs && fs[Parent(folder)].File? ==> r.Err?
    ensures r.Err? ==> r.error.IOError? && r.error.path in fs && fs[r.error.path].File?
    ensures r.Ok? ==> IsDir(r.value, folder) && fs.Keys <= r.value.Keys
    ensures r.Ok? ==> forall q :: q in fs ==> r.value[q] == fs[q]
    ensures r.Ok? ==> forall q :: q in r.value && q !in fs ==> r.value[q] == Dir && |q| <= |folder| && q == folder[..|q|]
    decreases |folder|
  {
    if folder in fs then
      if fs[folder].Dir? then Ok(fs) else Err(IOError(folder))
    else
      var parent := Parent(folder);
      var above := if parent != "" && parent !in fs && !AllSlashes(folder) then MakeDirs(fs, parent) else Ok(fs);
      match above
      case Err(e) => Err(e)
      case Ok(made) =>
        if parent in made && made[parent].File? then Err(IOError(parent))
        else Ok(made[folder := Dir])
  }
}

=== FILE: legacy_burp.dfy ===
/** The older in-memory engine (`burp/burp.py`): named tables of records, one shared
    auto-increment cursor, and the file-level persister of `burp/persist.py`. */
module LegacyBurp {
  import opened Results
  import opened Records
  import opened Paths
  import opened FileSystem
  import opened Persist

  /** `db_name` together with the persister `create_database` builds for it. */
  datatype Database = Database(name: string, persister: Persister)

  datatype Burp = Burp(
    settings: Settings,
    db: Option<Database>,
    filepath: Option<Path>,
    tables: map<string, Table>,
    autoIncId: int,
    autoIncStatus: bool,
    tableName: string)

  /** What `Burp()` starts from. */
  function Init(): (s: Burp)
    ensures s.tables == map[] && s.tableName == "" && s.db == None && s.filepath == None
    ensures s.autoIncId == 0 && !s.autoIncStatus
    ensures s.settings == Settings("data", ".json", "utf-8")
  {
    Burp(NewSettings(None, None, None), None, None, map[], 0, false, "")
  }

  /** The state after a call (including what was changed before an exception) and the call's result. */
  datatype Step<+T> = Step(next: Burp, result: Result<T>)

  /** The same for calls that reach the file system. */
  datatype DiskStep<+T> = DiskStep(next: Burp, fs: Fs, result: Result<T>)

  /** The persister holds the engine's own settings object. */
  predicate Coherent(s: Burp)
  {
    s.db.Some? ==> s.db.value.persister.settings == s.settings
  }

  /** Every id stored in any table lies below the shared cursor. */
  predicate Valid(s: Burp)
  {
    forall name, id :: name in s.tables && id in s.tables[name] ==> id < s.autoIncId
  }

  /** `create_database(db_name, encoding)`: a truthy encoding outside the allow-list raises
      `ValueError`; otherwise the encoding (if given) and the folder are stored and a fresh
      persister is built. An existing folder is only reported, never refused. */
  function CreateDatabase(s: Burp, name: string, encoding: Option<string>): (r: Step<Persister>)
    ensures r.result.Err? <==> Truthy(encoding) && encoding.value !in CommonEncodings
    ensures r.result.Err? ==> r.next == s && Raised(r.result.error) == ValueError
    ensures r.result.Ok? ==> (&& r.next.settings.folder == name
                              && r.next.settings.extension == s.settings.extension
                              && r.next.settings.encoding == OrElse(encoding, s.settings.encoding))
    ensures r.result.Ok? ==> (&& r.next.db == Some(Database(name, r.result.value))
                              && r.result.value == NewPersister(r.next.settings))
    ensures r.next.tables == s.tables && r.next.tableName == s.tableName
    ensures r.next.autoIncId == s.autoIncId && r.next.autoIncStatus == s.autoIncStatus
    ensures r.next.(settings := s.settings, db := s.db) == s
  {
    if Truthy(encoding) && encoding.value !in CommonEncodings then
      Step(s, Err(InvalidEncoding(encoding.value)))
    else
      var settings := s.settings.(encoding := OrElse(encoding, s.settings.encoding), folder := name);
      var p := NewPersister(settings);
      Step(s.(settings := settings, db := Some(Database(name, p))), Ok(p))
  }

  /** What `create_table` reports: the file it made, the file it found at the probed path,
      or that making the file failed (the error is printed and swallowed). */
  datatype CreateReply = Created(path: Path) | AlreadyOnDisk | WriteFailed

  /** The path `create_table` probes: `folder + table_name + extension`, with no separator. */
  function ProbePath(s: Burp, name: string): Path
  {
    s.settings.folder + name + s.settings.extension
  }

  /** `create_table(table_name, auto_increment)`: the name is (re)registered with an empty
      table whatever it held before; a probe hit returns a message; otherwise the table
      becomes active and its file is written through the persister. */
  function CreateTable(s: Burp, fs: Fs, cwd: AbsPath, name: string, autoIncrement: bool): (r: DiskStep<CreateReply>)
    ensures r.next.tables == s.tables[name := map[]]
    ensures r.next.autoIncStatus == (s.autoIncStatus || autoIncrement) && r.next.autoIncId == s.autoIncId
    ensures r.next.settings == s.settings
    ensures r.result.Err? <==> s.db.None?
    ensures r.result.Err? ==> r.result.error == NoPersister && r.fs == fs && r.next.tableName == s.tableName
    ensures r.result == Ok(AlreadyOnDisk) <==> s.db.Some? && CheckExists(fs, cwd, ProbePath(s, name))
    ensures r.result == Ok(AlreadyOnDisk) ==> r.fs == fs && r.next.tableName == s.tableName
    ensures r.result.Ok? && r.result.value != AlreadyOnDisk ==> r.next.tableName == name
    ensures r.result.Ok? && r.result.value.Created? ==>
              && r.result.value.path == TableFilePath(cwd, s.db.value.name, name, s.db.value.persister.settings.extension)
              && HoldsObject(r.fs, r.result.value.path, map[])
              && r.next.filepath == Some(r.result.value.path)
              && r.next.db.Some? && r.next.db.value.persister.dbFilepath == r.result.value.path
    ensures r.result == Ok(WriteFailed) ==> (&& r.next.db == s.db && r.next.filepath == s.filepath
                                             && fs.Keys <= r.fs.Keys
                                             && (forall q :: q in fs ==> r.fs[q] == fs[q])
                                             && (forall q :: q in r.fs && q !in fs ==> r.fs[q] == Dir))
    ensures r.result == Ok(WriteFailed) <==>
              (&& s.db.Some? && !CheckExists(fs, cwd, ProbePath(s, name))
               && CreateTableFile(s.db.value.persister, fs, cwd, name, s.db.value.name, map[]).result.Err?)
    ensures s.db.Some? && !CheckExists(fs, cwd, ProbePath(s, name)) ==>
              r.fs == CreateTableFile(s.db.value.persister, fs, cwd, name, s.db.value.name, map[]).fs
    ensures r.next.db.Some? <==> s.db.Some?
    ensures r.next.db.Some? ==> (&& r.next.db.value.name == s.db.value.name
                                 && r.next.db.value.persister.settings == s.db.value.persister.settings)
    ensures var base := s.(tables := s.tables[name := map[]], autoIncStatus := s.autoIncStatus || autoIncrement);
            && (r.result.Err? || r.result == Ok(AlreadyOnDisk) ==> r.next == base)
            && (r.result == Ok(WriteFailed) ==> r.next == base.(tableName := name))
            && (r.result.Ok? && r.result.value.Created? ==>
                  r.next == base.(tableName := name, filepath := Some(r.result.value.path),
                                  db := Some(s.db.value.(persister := s.db.value.persister.(dbFilepath := r.result.value.path)))))
  {
    var s1 := s.(tables := s.tables[name := map[]], autoIncStatus := s.autoIncStatus || autoIncrement);
    if s.db.None? then
      DiskStep(s1, fs, Err(NoPersister))
    else if CheckExists(fs, cwd, ProbePath(s, name)) then
      DiskStep(s1, fs, Ok(AlreadyOnDisk))
    else
      WriteTableFile(s1.(tableName := name), fs, cwd)
  }

  /** The last part of `create_table`: the persister makes the active table's file, and a
      failure is swallowed. */
  function WriteTableFile(s: Burp, fs: Fs, cwd: AbsPath): (r: DiskStep<CreateReply>)
    requires s.db.Some?
    ensures && r.next.tables == s.tables && r.next.tableName == s.tableName && r.next.settings == s.settings
            && r.next.autoIncId == s.autoIncId && r.next.autoIncStatus == s.autoIncStatus
    ensures r.result.Ok? && r.result.value != AlreadyOnDisk
    ensures r.result.value.Created? ==>
              && r.result.value.path == TableFilePath(cwd, s.db.value.name, s.tableName, s.db.value.persister.settings.extension)
              && HoldsObject(r.fs, r.result.value.path, map[])
              && r.next.filepath == Some(r.result.value.path)
              && r.next.db.Some? && r.next.db.value.persister.dbFilepath == r.result.value.path
    ensures r.result == Ok(WriteFailed) ==> (&& r.next.db == s.db && r.next.filepath == s.filepath
                                             && fs.Keys <= r.fs.Keys
                                             && (forall q :: q in fs ==> r.fs[q] == fs[q])
                                             && (forall q :: q in r.fs && q !in fs ==> r.fs[q] == Dir))
    ensures var o := CreateTableFile(s.db.value.persister, fs, cwd, s.tableName, s.db.value.name, map[]);
            (r.result == Ok(WriteFailed) <==> o.result.Err?) && r.fs == o.fs
    ensures r.next.db.Some? && r.next.db.value.name == s.db.value.name
    ensures r.next.db.value.persister.settings == s.db.value.persister.settings
    ensures r.result == Ok(WriteFailed) ==> r.next == s
    ensures r.result.value.Created? ==>
              r.next == s.(filepath := Some(r.result.value.path),
                           db := Some(s.db.value.(persister := s.db.value.persister.(dbFilepath := r.result.value.path))))
  {
    var db := s.db.value;
    var o := CreateTableFile(db.persister, fs, cwd, s.tableName, db.name, map[]);
    if o.result.Err? then
      DiskStep(s, o.fs, Ok(WriteFailed))
    else
      DiskStep(s.(db := Some(db.(persister := o.persister)), filepath := Some(o.result.value)),
               o.fs, Ok(Created(o.result.value)))
  }

  /** `_auto_increment_id`: the cursor moves by one exactly when auto-increment is on. */
  function AutoIncrement(s: Burp): (r: Burp)
    ensures s.autoIncStatus ==> r.autoIncId == s.autoIncId + 1
    ensures !s.autoIncStatus ==> r.autoIncId == s.autoIncId
    ensures r.(autoIncId := s.autoIncId) == s
  {
    if s.autoIncStatus then s.(autoIncId := s.autoIncId + 1) else s
  }

  /** `add_one(table_name, data)`: an unknown name raises `KeyError` on the store (the check
      before it only prints); otherwise `data` goes under the cursor, the cursor advances,
      and the result is the advanced cursor minus one. */
  function AddOne(s: Burp, name: string, data: Record): (r: Step<int>)
    ensures r.result.Err? <==> name !in s.tables
    ensures r.result.Err? ==> r.next == s && r.result.error == UnknownTable(name)
    ensures r.result.Ok? ==>
              && r.next.tables.Keys == s.tables.Keys
              && r.next.tables[name].Keys == s.tables[name].Keys + {s.autoIncId}
              && r.next.tables[name][s.autoIncId] == data
              && (forall id :: id in s.tables[name] && id != s.autoIncId ==>
                                 r.next.tables[name][id] == s.tables[name][id])
              && (forall n :: n in s.tables && n != name ==> r.next.tables[n] == s.tables[n])
              && r.result.value == r.next.autoIncId - 1
    ensures r.result.Ok? && s.autoIncStatus ==> r.result.value == s.autoIncId && r.next.autoIncId == s.autoIncId + 1
    ensures r.result.Ok? && !s.autoIncStatus ==> r.result.value == s.autoIncId - 1 && r.next.autoIncId == s.autoIncId
    ensures r.next.(tables := s.tables, autoIncId := s.autoIncId) == s
  {
    if name !in s.tables then
      Step(s, Err(UnknownTable(name)))
    else
      var stored := s.(tables := s.tables[name := s.tables[name][s.autoIncId := data]]);
      var advanced := AutoIncrement(stored);
      Step(advanced, Ok(advanced.autoIncId - 1))
  }

  /** `_table_name_id_exists(id)`: `KeyError` when no table is active, the active name is
      not registered, or the id is missing from it. */
  function CheckId(s: Burp, id: int): (r: Result<()>)
    ensures r.Ok? <==> s.tableName != "" && s.tableName in s.tables && id in s.tables[s.tableName]
    ensures r.Err? ==> Raised(r.error) == KeyError
    ensures s.tableName == "" ==> r == Err(NoActiveTable)
  {
    if s.tableName == "" then Err(NoActiveTable)
    else if s.tableName !in s.tables then Err(UnknownTable(s.tableName))
    else if id !in s.tables[s.tableName] then Err(UnknownId(id))
    else Ok(())
  }

  /** `delete(id)`: the id is removed from the active table; nothing else changes. */
  function Delete(s: Burp, id: int): (r: Step<()>)
    ensures r.result.Err? <==> CheckId(s, id).Err?
    ensures r.result.Err? ==> r.next == s && Raised(r.result.error) == KeyError
    ensures r.result.Ok? ==>
              var t := s.tableName;
              && id in s.tables[t]
              && r.next.tables.Keys == s.tables.Keys
              && r.next.tables[t].Keys == s.tables[t].Keys - {id}
              && (forall k :: k in r.next.tables[t] ==> r.next.tables[t][k] == s.tables[t][k])
              && (forall n :: n in s.tables && n != t ==> r.next.tables[n] == s.tables[n])
    ensures r.next.(tables := s.tables) == s
  {
    match CheckId(s, id)
    case Err(e) => Step(s, Err(e))
    case Ok(_) =>
      var t := s.tableName;
      Step(s.(tables := s.tables[t := s.tables[t] - {id}]), Ok(()))
  }

  /** `update(id, data)`: shallow merge of `data` into the stored record, which is returned. */
  function Update(s: Burp, id: int, data: Record): (r: Step<Record>)
    ensures r.result.Err? <==> CheckId(s, id).Err?
    ensures r.result.Err? ==> r.next == s && Raised(r.result.error) == KeyError
    ensures r.result.Ok? ==>
              var t := s.tableName;
              && r.result.value == Merge(s.tables[t][id], data)
              && r.next.tables.Keys == s.tables.Keys
              && r.next.tables[t].Keys == s.tables[t].Keys
              && r.next.tables[t][id] == r.result.value
              && (forall k :: k in s.tables[t] && k != id ==> r.next.tables[t][k] == s.tables[t][k])
              && (forall n :: n in s.tables && n != t ==> r.next.tables[n] == s.tables[n])
    ensures r.next.(tables := s.tables) == s
  {
    match CheckId(s, id)
    case Err(e) => Step(s, Err(e))
    case Ok(_) =>
      var t := s.tableName;
      var merged := Merge(s.tables[t][id], data);
      Step(s.(tables := s.tables[t := s.tables[t][id := merged]]), Ok(merged))
  }

  /** `get_one(id)`: the stored record, or the `KeyError` of the existence check. */
  function GetOne(s: Burp, id: int): (r: Result<Record>)
    ensures r.Ok? <==> CheckId(s, id).Ok?
    ensures r.Ok? ==> r.value == s.tables[s.tableName][id]
    ensures r.Err? ==> Raised(r.error) == KeyError
  {
    match CheckId(s, id)
    case Err(e) => Err(e)
    case Ok(_) => Ok(s.tables[s.tableName][id])
  }

  /** What `get_all` returns: the active table, or the message that it does not exist. */
  datatype Listing = Rows(table: Table) | NoSuchTable

  /** `get_all()`: never raises; a message stands in for the table when none is active. */
  function GetAll(s: Burp): (r: Listing)
    ensures r.Rows? <==> s.tableName != "" && s.tableName in s.tables
    ensures r.Rows? ==> r.table == s.tables[s.tableName]
  {
    if s.tableName !in s.tables || s.tableName == "" then NoSuchTable else Rows(s.tables[s.tableName])
  }

  // ---- Properties of the engine ----

  lemma InitValid()
    ensures Valid(Init()) && Coherent(Init())
  {
  }

  /** With auto-increment on, `add_one` writes under an id no table holds yet and keeps
      every stored id below the cursor. */
  lemma AddOneFresh(s: Burp, name: string, data: Record)
    requires Valid(s) && s.autoIncStatus && name in s.tables
    ensures var r := AddOne(s, name, data);
            && r.result.Ok?
            && (forall n :: n in s.tables ==> r.result.value !in s.tables[n])
            && Valid(r.next)
  {
    var r := AddOne(s, name, data);
    forall n, id | n in r.next.tables && id in r.next.tables[n]
      ensures id < r.next.autoIncId
    {
      if n == name && id == s.autoIncId {
      } else {
        assert id in s.tables[n];
      }
    }
  }

  /** Two successive `add_one` calls with auto-increment on return consecutive ids. */
  lemma AddOneIdsIncrease(s: Burp, a: string, da: Record, b: string, db: Record)
    requires s.autoIncStatus && a in s.tables && b in s.tables
    ensures var r1 := AddOne(s, a, da);
            var r2 := AddOne(r1.next, b, db);
            r1.result.Ok? && r2.result.Ok? && r2.result.value == r1.result.value + 1
  {
  }

  /** With auto-increment off the cursor stays put: a second `add_one` overwrites the record
      the first one wrote, and both return the cursor minus one. */
  lemma AddOneWithoutAutoIncrementOverwrites(s: Burp, name: string, d1: Record, d2: Record)
    requires !s.autoIncStatus && name in s.tables
    ensures var r1 := AddOne(s, name, d1);
            var r2 := AddOne(r1.next, name, d2);
            && r2.next.tables[name][s.autoIncId] == d2
            && r2.next.tables[name].Keys == s.tables[name].Keys + {s.autoIncId}
            && r1.result == Ok(s.autoIncId - 1) && r2.result == Ok(s.autoIncId - 1)
  {
  }

  /** Deleting never moves the cursor back, so a deleted id is not handed out again. */
  lemma DeleteKeepsValid(s: Burp, id: int)
    requires Valid(s)
    ensures var r := Delete(s, id);
            Valid(r.next) && r.next.autoIncId == s.autoIncId
            && (r.result.Ok? ==> id !in r.next.tables[s.tableName])
  {
    var r := Delete(s, id);
    forall n, k | n in r.next.tables && k in r.next.tables[n]
      ensures k < r.next.autoIncId
    {
      assert k in s.tables[n];
    }
  }

  lemma UpdateKeepsValid(s: Burp, id: int, data: Record)
    requires Valid(s)
    ensures Valid(Update(s, id, data).next)
  {
    var r := Update(s, id, data);
    forall n, k | n in r.next.tables && k in r.next.tables[n]
      ensures k < r.next.autoIncId
    {
      assert k in s.tables[n];
    }
  }

  /** (Re-)creating a table registers an empty table and keeps the cursor ahead of every id. */
  lemma CreateTableKeepsValid(s: Burp, fs: Fs, cwd: AbsPath, name: string, autoIncrement: bool)
    requires Valid(s) && Coherent(s)
    ensures var r := CreateTable(s, fs, cwd, name, autoIncrement);
            Valid(r.next) && Coherent(r.next)
  {
    var r := CreateTable(s, fs, cwd, name, autoIncrement);
    forall n, k | n in r.next.tables && k in r.next.tables[n]
      ensures k < r.next.autoIncId
    {
      assert n != name;
      assert k in s.tables[n];
    }
  }

  lemma CreateDatabaseKeepsValid(s: Burp, name: string, encoding: Option<string>)
    requires Valid(s) && Coherent(s)
    ensures var r := CreateDatabase(s, name, encoding);
            Valid(r.next) && Coherent(r.next)
  {
  }

  /** `get_one` succeeds exactly on the ids `get_all` lists, and returns what it lists. */
  lemma GetOneAgreesWithGetAll(s: Burp, id: int)
    ensures CheckId(s, id).Ok? <==> GetAll(s).Rows? && id in GetAll(s).table
    ensures GetOne(s, id).Ok? ==> GetOne(s, id).value == GetAll(s).table[id]
  {
  }

  /** After `add_one` into the active table the record is read back under the id it was
      stored at, and the listing is the old table with that one entry added. */
  lemma ReadAfterInsert(s: Burp, data: Record)
    requires s.tableName != "" && s.tableName in s.tables
    ensures var r := AddOne(s, s.tableName, data);
            && GetOne(r.next, s.autoIncId) == Ok(data)
            && GetAll(r.next) == Rows(s.tables[s.tableName][s.autoIncId := data])
            && (s.autoIncStatus ==> GetOne(r.next, r.result.value) == Ok(data))
  {
    var r := AddOne(s, s.tableName, data);
    assert r.next.tables[s.tableName] == s.tables[s.tableName][s.autoIncId := data];
  }

  /** After `update` the id reads back as the merged record; every other id reads as before. */
  lemma ReadAfterUpdate(s: Burp, id: int, data: Record, other: int)
    requires CheckId(s, id).Ok?
    ensures var r := Update(s, id, data);
            && GetOne(r.next, id) == Ok(Merge(s.tables[s.tableName][id], data)) == r.result
            && (other != id ==> GetOne(r.next, other) == GetOne(s, other))
  {
  }

  /** After `delete` the id fails the existence check; every other id passes or fails it as before. */
  lemma DeleteForgetsOnlyThatId(s: Burp, id: int, other: int)
    requires CheckId(s, id).Ok?
    ensures var r := Delete(s, id);
            && CheckId(r.next, id) == Err(UnknownId(id)) && GetOne(r.next, id).Err?
            && (other != id ==> CheckId(r.next, other) == CheckId(s, other)
                                && GetOne(r.next, other) == GetOne(s, other))
  {
  }

  /** The probe misses the table file: when the probed name is absent, `create_table` on a
      table whose file already holds data overwrites that file with `{}`. */
  lemma CreateTableOverwritesExistingFile(s: Burp, fs: Fs, cwd: AbsPath, name: string, autoIncrement: bool)
    requires s.db.Some? && Coherent(s)
    requires TableFilePath(cwd, s.db.value.name, name, s.settings.extension) in fs
    requires fs[TableFilePath(cwd, s.db.value.name, name, s.settings.extension)].File?
    requires !CheckExists(fs, cwd, ProbePath(s, name))
    ensures var r := CreateTable(s, fs, cwd, name, autoIncrement);
            && r.result.Ok? && r.result.value.Created?
            && HoldsObject(r.fs, TableFilePath(cwd, s.db.value.name, name, s.settings.extension), map[])
  {
    CreateTableFileEmpties(s.db.value.persister, fs, cwd, name, s.db.value.name);
  }

  /** For database `shop` and table `orders` the probe looks for `shoporders.json` next to
      the `shop` folder, not for `shop/orders.json` inside it. */
  lemma ProbeIsNotTheTableFile()
    ensures var s := Init().(settings := Settings("shop", ".json", "utf-8"));
            && Resolve("/w", ProbePath(s, "orders")) == "/w/shoporders.json"
            && TableFilePath("/w", "shop", "orders", ".json") == "/w/shop/orders.json"
  {
  }

  /** The probe never names the table file: for a relative folder name and a relative table
      file name, the table file is one character (the separator) longer than the probed path. */
  lemma ProbeMissesTableFile(s: Burp, cwd: AbsPath, name: string)
    requires IsTidy(s.settings.folder) && !IsAbsolute(s.settings.folder)
    requires !IsAbsolute(name + s.settings.extension)
    ensures Resolve(cwd, ProbePath(s, name)) != TableFilePath(cwd, s.settings.folder, name, s.settings.extension)
  {
    var folder, file := s.settings.folder, name + s.settings.extension;
    JoinAssociative(cwd, folder, file);
    JoinIsTidy(cwd, folder);
    JoinBySeam(Join(cwd, folder), file);
    JoinBySeam(cwd, folder);
    JoinBySeam(cwd, folder + file);
    assert folder + name + s.settings.extension == folder + file;
    assert !IsAbsolute(folder + file);
    assert |Resolve(cwd, ProbePath(s, name))| == |Seam(cwd)| + |folder| + |file|;
    assert |TableFilePath(cwd, folder, name, s.settings.extension)| == |Seam(cwd)| + |folder| + 1 + |file|;
  }

  /** With a database open, the working directory present and plain names, `create_table`
      creates the table file and activates the table, unless the probe hits or something is
      in the way of the folder or the file. */
  lemma CreateTableSucceeds(s: Burp, fs: Fs, cwd: AbsPath, name: string, autoIncrement: bool)
    requires s.db.Some? && Coherent(s)
    requires IsTidy(cwd) && IsDir(fs, cwd)
    requires IsName(s.db.value.name) && IsName(name + s.settings.extension)
    requires !CheckExists(fs, cwd, ProbePath(s, name))
    requires !(Join(cwd, s.db.value.name) in fs && fs[Join(cwd, s.db.value.name)].File?)
    requires !IsDir(fs, TableFilePath(cwd, s.db.value.name, name, s.settings.extension))
    ensures var r := CreateTable(s, fs, cwd, name, autoIncrement);
            && r.result.Ok? && r.result.value.Created?
            && r.next.tableName == name && r.next.tables[name] == map[]
            && HoldsObject(r.fs, TableFilePath(cwd, s.db.value.name, name, s.settings.extension), map[])
  {
    CreateTableFileSucceeds(s.db.value.persister, fs, cwd, name, s.db.value.name, map[]);
  }

  /** When the probe misses, the database folder is missing but its parent is a folder, and
      the table file's own folder is missing too, the write fails, the failure is swallowed,
      the table is nevertheless the active one, and the database folder stays. */
  lemma CreateTableIntoMissingFolder(s: Burp, fs: Fs, cwd: AbsPath, name: string, autoIncrement: bool)
    requires s.db.Some? && !CheckExists(fs, cwd, ProbePath(s, name))
    requires var folder := Join(cwd, s.db.value.name);
             var path := TableFilePath(cwd, s.db.value.name, name, s.db.value.persister.settings.extension);
             && folder !in fs && IsDir(fs, Parent(folder))
             && path !in fs && path != folder && Parent(path) !in fs && Parent(path) != folder
    ensures var r := CreateTable(s, fs, cwd, name, autoIncrement);
            && r.result == Ok(WriteFailed) && r.next.tableName == name
            && r.fs == fs[Join(cwd, s.db.value.name) := Dir]
  {
    var db := s.db.value;
    var folder := Join(cwd, db.name);
    assert MakeDirs(fs, folder) == Ok(fs[folder := Dir]);
    PlaceTableFileOpenFails(db.persister, fs, folder,
                            TableFilePath(cwd, db.name, name, db.persister.settings.extension), map[]);
  }

  /** A table name with a '/' in it, `dir/leaf`, names a file in the sub-folder `dir` of
      the database folder, which nobody makes: when that sub-folder is missing the write
      fails, the failure is swallowed, the name is nevertheless the active one, and only the
      database folder is left behind. */
  lemma SlashedNameIsNotCreated(s: Burp, fs: Fs, cwd: AbsPath, dir: string, leaf: string, autoIncrement: bool)
    requires s.db.Some? && IsTidy(cwd) && IsDir(fs, cwd)
    requires var ext := s.db.value.persister.settings.extension;
             IsName(s.db.value.name) && IsName(dir) && IsName(leaf + ext)
    requires !CheckExists(fs, cwd, ProbePath(s, dir + "/" + leaf))
    requires Join(cwd, s.db.value.name) !in fs && Join(Join(cwd, s.db.value.name), dir) !in fs
    requires TableFilePath(cwd, s.db.value.name, dir + "/" + leaf, s.db.value.persister.settings.extension) !in fs
    ensures var r := CreateTable(s, fs, cwd, dir + "/" + leaf, autoIncrement);
            && r.result == Ok(WriteFailed)
            && r.next.tableName == dir + "/" + leaf
            && r.fs == fs[Join(cwd, s.db.value.name) := Dir]
  {
    var db, ext := s.db.value.name, s.db.value.persister.settings.extension;
    SlashedPathLies(fs, cwd, db, dir, leaf, ext);
    CreateTableIntoMissingFolder(s, fs, cwd, dir + "/" + leaf, autoIncrement);
  }

  /** Where the paths of a `dir/leaf` table lie: the database folder is made in one step,
      and the table file sits in `cwd/db/dir`, below it. */
  lemma SlashedPathLies(fs: Fs, cwd: AbsPath, db: string, dir: string, leaf: string, ext: string)
    requires IsTidy(cwd) && IsDir(fs, cwd)
    requires IsName(db) && IsName(dir) && IsName(leaf + ext) && Join(cwd, db) !in fs
    ensures var folder, path := Join(cwd, db), TableFilePath(cwd, db, dir + "/" + leaf, ext);
            && MakeDirs(fs, folder) == Ok(fs[folder := Dir]) && Parent(folder) == cwd
            && Parent(path) == Join(folder, dir)
            && |folder| < |Join(folder, dir)| < |path|
  {
    var folder := Join(cwd, db);
    assert IsTidy(db);
    ParentOfJoin(cwd, db);
    assert MakeDirs(fs, folder) == Ok(fs[folder := Dir]);
    SlashedFileLies(cwd, db, dir, leaf, ext);
  }

  lemma SlashedFileLies(cwd: AbsPath, db: string, dir: string, leaf: string, ext: string)
    requires IsTidy(cwd) && IsName(db) && IsName(dir) && IsName(leaf + ext)
    ensures var folder, path := Join(cwd, db), TableFilePath(cwd, db, dir + "/" + leaf, ext);
            && Parent(path) == Join(folder, dir)
            && |folder| < |Join(folder, dir)| < |path|
  {
    var folder := Join(cwd, db);
    var path := TableFilePath(cwd, db, dir + "/" + leaf, ext);
    assert IsTidy(dir) && IsTidy(db);
    assert (dir + "/" + leaf) + ext == Join(dir, leaf + ext);
    JoinAssociative(db, dir, leaf + ext);
    JoinIsTidy(db, dir);
    TableFileSitsInFolder(cwd, Join(db, dir), leaf, ext);
    JoinAssociative(cwd, db, dir);
    assert Parent(path) == Join(folder, dir);
    JoinIsTidy(cwd, db);
    JoinBySeam(folder, dir);
    JoinBySeam(cwd, db);
    assert |folder| < |Join(folder, dir)| < |path|;
  }
}

=== FILE: paths.dfy ===
/** POSIX path joining and splitting, as `os.path.join` and `os.path.dirname` do it. */
module Paths {

  type Path = string

  predicate IsAbsolute(p: Path)
  {
    |p| > 0 && p[0] == '/'
  }

  /** The working directory: `os.getcwd()` always names an absolute path. */
  type AbsPath = p: Path | IsAbsolute(p) witness "/"

  /** A single path component: non-empty and free of '/'. */
  predicate IsName(n: Path)
  {
    n != "" && forall k :: 0 <= k < |n| ==> n[k] != '/'
  }

  /** A folder path as `os.getcwd()` prints it and as `join` builds it from names: non-empty
      and ending in '/' only when it is the root. */
  predicate IsTidy(p: Path)
  {
    p != "" && (p == "/" || p[|p| - 1] != '/')
  }

  /** `os.path.join(a, b)`: an absolute `b` discards `a`; otherwise one '/' separates them
      unless `a` is empty or already ends in '/'. */
  function Join(a: Path, b: Path): (r: Path)
    ensures IsAbsolute(b) ==> r == b
    ensures IsAbsolute(a) ==> IsAbsolute(r)
  {
    if IsAbsolute(b) then b
    else if a == "" || a[|a| - 1] == '/' then a + b
    else a + "/" + b
  }

  /** `a` as `join` puts it in front of a relative path: with a '/' added unless it is empty
      or already ends in one. */
  function Seam(a: Path): (r: Path)
    ensures r == "" || r[|r| - 1] == '/'
  {
    if a == "" || a[|a| - 1] == '/' then a else a + "/"
  }

  lemma JoinBySeam(a: Path, b: Path)
    ensures Join(a, b) == if IsAbsolute(b) then b else Seam(a) + b
  {
  }

  /** Putting `b` after the seam of `a` and taking the seam again adds the two seams. */
  lemma SeamOfJoin(a: Path, b: Path)
    requires !IsAbsolute(b)
    ensures Seam(Seam(a) + b) == Seam(a) + Seam(b)
  {
    if b != "" {
      assert (Seam(a) + b)[|Seam(a) + b| - 1] == b[|b| - 1];
    }
  }

  /** Joining is associative: `join(a, join(b, c))` and `join(join(a, b), c)` name the same path. */
  lemma JoinAssociative(a: Path, b: Path, c: Path)
    ensures Join(a, Join(b, c)) == Join(Join(a, b), c)
  {
    if IsAbsolute(c) {
    } else if IsAbsolute(b) {
      JoinBySeam(b, c);
      assert IsAbsolute(Join(b, c)) by { assert Join(b, c)[0] == b[0]; }
    } else {
      JoinSeamsAssociative(a, b, c);
    }
  }

  lemma JoinSeamsAssociative(a: Path, b: Path, c: Path)
    requires !IsAbsolute(b) && !IsAbsolute(c)
    ensures Join(a, Join(b, c)) == Join(Join(a, b), c)
  {
    JoinBySeam(b, c);
    JoinBySeam(a, b);
    var bc := Seam(b) + c;
    assert !IsAbsolute(bc) by {
      if bc != "" {
        if Seam(b) == "" { assert bc[0] == c[0]; } else { assert bc[0] == Seam(b)[0] == b[0]; }
      }
    }
    JoinBySeam(a, bc);
    JoinBySeam(Seam(a) + b, c);
    SeamOfJoin(a, b);
    assert Seam(a) + (Seam(b) + c) == (Seam(a) + Seam(b)) + c;
  }

  /** Joining a tidy folder onto anything gives a tidy folder. */
  lemma JoinIsTidy(a: Path, f: Path)
    requires IsTidy(f)
    ensures IsTidy(Join(a, f))
  {
    JoinBySeam(a, f);
    if !IsAbsolute(f) {
      assert Join(a, f)[|Join(a, f)| - 1] == f[|f| - 1];
    }
  }

  /** The path a file operation reaches when given `p` while the working directory is `cwd`. */
  function Resolve(cwd: AbsPath, p: Path): (r: AbsPath)
    ensures IsAbsolute(p) ==> r == p
  {
    Join(cwd, p)
  }

  /** The number of characters of `p` up to and including its last '/', 0 when it has none. */
  function HeadLength(p: Path): (n: nat)
    ensures n <= |p|
    ensures n > 0 ==> p[n - 1] == '/'
    ensures forall k :: n <= k < |p| ==> p[k] != '/'
  {
    if p == "" then 0
    else if p[|p| - 1] == '/' then |p|
    else HeadLength(p[..|p| - 1])
  }

  /** `p` without its trailing '/' characters. */
  function StripSlashes(p: Path): (r: Path)
    ensures |r| <= |p| && r == p[..|r|]
    ensures r == "" || r[|r| - 1] != '/'
    ensures forall k :: |r| <= k < |p| ==> p[k] == '/'
  {
    if p != "" && p[|p| - 1] == '/' then StripSlashes(p[..|p| - 1]) else p
  }

  predicate AllSlashes(p: Path)
  {
    forall k :: 0 <= k < |p| ==> p[k] == '/'
  }

  /** `os.path.dirname(p)`: everything up to the last '/', with the trailing '/' characters
      removed unless nothing but '/' is left. */
  function Parent(p: Path): (r: Path)
    ensures |r| <= |p| && r == p[..|r|]
    ensures |r| < |p| || AllSlashes(p)
  {
    var head := p[..HeadLength(p)];
    if head != "" && !AllSlashes(head) then
      assert |StripSlashes(head)| < |head| || head[|head| - 1] != '/';
      StripSlashes(head)
    else head
  }

  /** The folder of `join(a, n)` is `a` again, for a tidy folder `a` and a single name `n`. */
  lemma {:induction false} ParentOfJoin(a: Path, n: Path)
    requires IsTidy(a) && IsName(n)
    ensures Parent(Join(a, n)) == a
  {
    var x := if a == "/" then a else a + "/";
    var r := Join(a, n);
    assert r == x + n;
    var h := HeadLength(r);
    assert r[|x| - 1] == '/';
    assert h == |x|;
    assert r[..h] == x;
    if a != "/" {
      assert !AllSlashes(x) by { assert x[|a| - 1] != '/'; }
      assert StripSlashes(x) == StripSlashes(a) by { assert x[..|x| - 1] == a; }
    }
  }
}

=== FILE: persist.dfy ===
/** The file-level snapshot helper (`DataPersistSettings`, `DataPersister`) over an
    abstract file system. */
module Persist {
  import opened Results
  import opened Records
  import opened Paths
  import opened FileSystem

  const DefaultFolder: string := "data"
  const DefaultExtension: string := ".json"
  const DefaultEncoding: string := "utf-8"

  datatype Settings = Settings(folder: string, extension: string, encoding: string)

  /** `DataPersistSettings(folder, extension, encoding)`: every override that is `None` or
      empty falls back to its default. */
  function NewSettings(folder: Option<string>, extension: Option<string>, encoding: Option<string>): (s: Settings)
    ensures Truthy(folder) ==> s.folder == folder.value
    ensures !Truthy(folder) ==> s.folder == DefaultFolder
    ensures Truthy(extension) ==> s.extension == extension.value
    ensures !Truthy(extension) ==> s.extension == DefaultExtension
    ensures Truthy(encoding) ==> s.encoding == encoding.value
    ensures !Truthy(encoding) ==> s.encoding == DefaultEncoding
  {
    Settings(OrElse(folder, DefaultFolder), OrElse(extension, DefaultExtension), OrElse(encoding, DefaultEncoding))
  }

  /** With no override the settings are folder `data`, extension `.json`, encoding `utf-8`. */
  lemma DefaultSettings()
    ensures NewSettings(None, None, None) == Settings("data", ".json", "utf-8")
    ensures NewSettings(Some(""), Some(""), Some("")) == Settings("data", ".json", "utf-8")
  {
  }

  /** A `DataPersister`: its settings and the two paths it remembers. The permission
      fields and the indent width only shape the bytes on disk and are not kept. */
  datatype Persister = Persister(settings: Settings, dbFilepath: Path, filepath: Option<Path>)

  function NewPersister(settings: Settings): (p: Persister)
    ensures p.settings == settings && p.dbFilepath == "" && p.filepath == None
  {
    Persister(settings, "", None)
  }

  /** What a persister call leaves behind: the persister, the file system, and its result. */
  datatype Outcome<+T> = Outcome(persister: Persister, fs: Fs, result: Result<T>)

  /** `check_exists(path)`: `os.path.exists`, a relative path being taken from `cwd`. */
  function CheckExists(fs: Fs, cwd: AbsPath, path: Path): (r: bool)
    ensures IsAbsolute(path) ==> (r <==> path in fs)
    ensures !IsAbsolute(path) ==> (r <==> Seam(cwd) + path in fs)
  {
    JoinBySeam(cwd, path);
    Resolve(cwd, path) in fs
  }

  /** The file `create_table_file` writes: `cwd/foldername/filename + extension`. */
  function TableFilePath(cwd: AbsPath, foldername: string, filename: string, extension: string): AbsPath
  {
    Join(cwd, Join(foldername, filename + extension))
  }

  /** For a folder name and a plain file name, the table file sits directly in the folder
      `create_table_file` makes, `cwd/foldername`. */
  lemma TableFileSitsInFolder(cwd: AbsPath, foldername: string, filename: string, extension: string)
    requires IsTidy(foldername) && IsName(filename + extension)
    ensures var path := TableFilePath(cwd, foldername, filename, extension);
            Parent(path) == Join(cwd, foldername) && |Join(cwd, foldername)| < |path|
  {
    JoinAssociative(cwd, foldername, filename + extension);
    JoinIsTidy(cwd, foldername);
    ParentOfJoin(Join(cwd, foldername), filename + extension);
    JoinBySeam(Join(cwd, foldername), filename + extension);
  }

  /** `create_table_file(filename, foldername, data)`: when the table file is missing the
      folder `cwd/foldername` is made (`makedirs` errors escape as they are); then the file
      is opened for writing and `data` dumped into it, and a failure there is re-raised as a
      bare `Exception` (the folders made stay). */
  function CreateTableFile(p: Persister, fs: Fs, cwd: AbsPath, filename: string, foldername: string,
                           data: Record): (o: Outcome<Path>)
    ensures var path := TableFilePath(cwd, foldername, filename, p.settings.extension);
            var folder := Join(cwd, foldername);
            && (path in fs ==> (o.result.Ok? <==> fs[path].File?))
            && (path !in fs && MakeDirs(fs, folder).Err? ==> o.result.Err? && Raised(o.result.error) == OSError && o.fs == fs)
            && (path !in fs && MakeDirs(fs, folder).Ok? && Parent(path) == folder && |folder| < |path| ==> o.result.Ok?)
            && (path !in fs && MakeDirs(fs, folder).Ok? ==>
                  (o.result.Ok? <==> Write(MakeDirs(fs, folder).value, path, Parsed(JObject(data))).Ok?))
            && (o.result.Err? ==> (o.result == Err(PersisterFailed) <==> path in fs || MakeDirs(fs, folder).Ok?))
            && (o.result == Err(PersisterFailed) && path !in fs ==> o.fs == MakeDirs(fs, folder).value)
            && (o.result.Err? ==> Raised(o.result.error) in {OSError, Exception} && o.persister.dbFilepath == p.dbFilepath)
            && (o.result.Ok? ==> o.result.value == path && o.persister.dbFilepath == path && HoldsObject(o.fs, path, data))
            && fs.Keys <= o.fs.Keys
            && (forall q :: q in fs && q != path ==> o.fs[q] == fs[q])
            && (forall q :: q in o.fs && q !in fs && q != path ==>
                             o.fs[q] == Dir && |q| <= |folder| && q == folder[..|q|])
    ensures o.persister.settings == p.settings && o.persister.filepath == p.filepath
  {
    PlaceTableFile(p, fs, Join(cwd, foldername), TableFilePath(cwd, foldername, filename, p.settings.extension), data)
  }

  /** The body of `create_table_file` once its two paths are known. */
  function PlaceTableFile(p: Persister, fs: Fs, folder: Path, path: Path, data: Record): (o: Outcome<Path>)
    ensures path in fs ==> (o.result.Ok? <==> fs[path].File?)
    ensures path !in fs && MakeDirs(fs, folder).Err? ==> o.result.Err? && Raised(o.result.error) == OSError && o.fs == fs
    ensures path !in fs && MakeDirs(fs, folder).Ok? && Parent(path) == folder && |folder| < |path| ==> o.result.Ok?
    ensures path !in fs && MakeDirs(fs, folder).Ok? ==>
              (o.result.Ok? <==> Write(MakeDirs(fs, folder).value, path, Parsed(JObject(data))).Ok?)
    ensures o.result.Err? ==> (o.result == Err(PersisterFailed) <==> path in fs || MakeDirs(fs, folder).Ok?)
    ensures o.result == Err(PersisterFailed) && path !in fs ==> o.fs == MakeDirs(fs, folder).value
    ensures o.result.Err? ==> Raised(o.result.error) in {OSError, Exception} && o.persister.dbFilepath == p.dbFilepath
    ensures o.result.Ok? ==> o.result.value == path && o.persister.dbFilepath == path && HoldsObject(o.fs, path, data)
    ensures fs.Keys <= o.fs.Keys
    ensures forall q :: q in fs && q != path ==> o.fs[q] == fs[q]
    ensures forall q :: q in o.fs && q !in fs && q != path ==> o.fs[q] == Dir && |q| <= |folder| && q == folder[..|q|]
    ensures o.persister.settings == p.settings && o.persister.filepath == p.filepath
  {
    match if path in fs then Ok(fs) else MakeDirs(fs, folder)
    case Err(e) => Outcome(p, fs, Err(e))
    case Ok(made) =>
      match Write(made, path, Parsed(JObject(data)))
      case Err(_) => Outcome(p, made, Err(PersisterFailed))
      case Ok(written) => Outcome(p.(dbFilepath := path), written, Ok(path))
  }

  /** When the folders are made but the file's own folder is still missing, the open fails,
      `Exception` is raised, and the folders made stay. */
  lemma PlaceTableFileOpenFails(p: Persister, fs: Fs, folder: Path, path: Path, data: Record)
    requires path !in fs && MakeDirs(fs, folder).Ok?
    requires path !in MakeDirs(fs, folder).value && Parent(path) !in MakeDirs(fs, folder).value
    ensures PlaceTableFile(p, fs, folder, path, data) == Outcome(p, MakeDirs(fs, folder).value, Err(PersisterFailed))
  {
  }

  /** With the working directory present, a single folder name and a plain file name, the
      table file is created unless a file already sits where the folder goes or a folder
      where the file goes. */
  lemma CreateTableFileSucceeds(p: Persister, fs: Fs, cwd: AbsPath, filename: string, foldername: string,
                                data: Record)
    requires IsTidy(cwd) && IsDir(fs, cwd)
    requires IsName(foldername) && IsName(filename + p.settings.extension)
    requires !(Join(cwd, foldername) in fs && fs[Join(cwd, foldername)].File?)
    requires !IsDir(fs, TableFilePath(cwd, foldername, filename, p.settings.extension))
    ensures var o := CreateTableFile(p, fs, cwd, filename, foldername, data);
            && o.result.Ok?
            && HoldsObject(o.fs, TableFilePath(cwd, foldername, filename, p.settings.extension), data)
  {
    ParentOfJoin(cwd, foldername);
    TableFileSitsInFolder(cwd, foldername, filename, p.settings.extension);
  }

  /** With the default argument the table file ends up holding the empty object, whatever
      file was at that path before. */
  lemma CreateTableFileEmpties(p: Persister, fs: Fs, cwd: AbsPath, filename: string, foldername: string)
    requires TableFilePath(cwd, foldername, filename, p.settings.extension) in fs
    requires fs[TableFilePath(cwd, foldername, filename, p.settings.extension)].File?
    ensures var o := CreateTableFile(p, fs, cwd, filename, foldername, map[]);
            && o.result.Ok?
            && HoldsObject(o.fs, TableFilePath(cwd, foldername, filename, p.settings.extension), map[])
  {
  }

  /** The object `add_data` starts from: the decoded file, or `{}` when the file is missing
      or its text is not JSON (`FileNotFoundError`, `JSONDecodeError`). Bytes that are not
      text raise `UnicodeDecodeError` while `json.load` reads them, which the handler does not
      catch, and so does a folder or a JSON value other than an object (no `update`). */
  function Existing(fs: Fs, path: Path): (r: Result<map<string, Json>>)
    ensures (path !in fs || fs[path] == File(Garbled)) ==> r == Ok(map[])
    ensures forall m :: HoldsObject(fs, path, m) ==> r == Ok(m)
    ensures path in fs && fs[path] == File(Undecodable) ==> r == Err(NotText(path)) && Raised(r.error) == ValueError
    ensures r.Err? <==> || IsDir(fs, path)
                        || (path in fs && fs[path] == File(Undecodable))
                        || (path in fs && fs[path].File? && fs[path].content.Parsed? && !fs[path].content.value.JObject?)
  {
    if path !in fs then Ok(map[])
    else match fs[path]
      case Dir => Err(IOError(path))
      case File(Garbled) => Ok(map[])
      case File(Undecodable) => Err(NotText(path))
      case File(Parsed(JObject(m))) => Ok(m)
      case File(Parsed(_)) => Err(NotAnObject(path))
  }

  /** The file `add_data` reads and rewrites: `cwd/folder_name/filename + extension`. */
  function DataFilePath(cwd: AbsPath, folder: string, filename: string, extension: string): AbsPath
  {
    Join(Join(cwd, folder), filename + extension)
  }

  /** For a folder name and a plain file name, the data file sits directly in `cwd/folder_name`. */
  lemma DataFileSitsInFolder(cwd: AbsPath, folder: string, filename: string, extension: string)
    requires IsTidy(folder) && IsName(filename + extension)
    ensures Parent(DataFilePath(cwd, folder, filename, extension)) == Join(cwd, folder)
  {
    JoinIsTidy(cwd, folder);
    ParentOfJoin(Join(cwd, folder), filename + extension);
  }

  /** `add_data(folder_name, filename, extension, id, data, encoding)`: read the file's
      object, set key `id` to `data`, write the whole object back; `json.dump` writes the
      int key `id` as `str(id)`. `add_data` resolves `encoding` against the settings but
      never hands it to `open`, so it has no effect here. Nothing is returned. */
  function AddData(p: Persister, fs: Fs, cwd: AbsPath, folder: string, filename: string, extension: string,
                   id: int, data: Record, encoding: Option<string>): (o: Outcome<()>)
    ensures var path := DataFilePath(cwd, folder, filename, extension);
            && o.persister == p.(filepath := Some(path))
            && (o.result.Ok? <==> (path in fs && fs[path].File? && Existing(fs, path).Ok?)
                                  || (path !in fs && IsDir(fs, Parent(path))))
            && (o.result.Ok? ==> o.fs.Keys == fs.Keys + {path})
            && (o.result.Ok? ==> forall q :: q in fs && q != path ==> o.fs[q] == fs[q])
            && (o.result.Ok? ==> forall m :: HoldsObject(fs, path, m) ==>
                                   HoldsObject(o.fs, path, m[Decimal(id) := JObject(data)]))
            && (o.result.Ok? && (path !in fs || fs[path] == File(Garbled)) ==>
                  HoldsObject(o.fs, path, map[Decimal(id) := JObject(data)]))
            && (path in fs && fs[path] == File(Undecodable) ==>
                  o.result == Err(NotText(path)) && Raised(o.result.error) == ValueError)
            && (o.result.Err? ==> o.fs == fs)
  {
    var path := DataFilePath(cwd, folder, filename, extension);
    var p' := p.(filepath := Some(path));
    match Existing(fs, path)
    case Err(e) => Outcome(p', fs, Err(e))
    case Ok(m) =>
      match Write(fs, path, Parsed(JObject(m[Decimal(id) := JObject(data)])))
      case Err(e) => Outcome(p', fs, Err(e))
      case Ok(written) => Outcome(p', written, Ok(()))
  }

  /** Two `add_data` calls for different ids into the same file keep both records. */
  lemma AddDataKeepsEarlierIds(p: Persister, fs: Fs, cwd: AbsPath, folder: string, filename: string,
                               extension: string, a: int, da: Record, b: int, db: Record)
    requires a != b
    requires AddData(p, fs, cwd, folder, filename, extension, a, da, None).result.Ok?
    ensures var o1 := AddData(p, fs, cwd, folder, filename, extension, a, da, None);
            var o2 := AddData(o1.persister, o1.fs, cwd, folder, filename, extension, b, db, None);
            var path := DataFilePath(cwd, folder, filename, extension);
            && o2.result.Ok?
            && path in o2.fs && o2.fs[path].File? && o2.fs[path].content.Parsed?
            && o2.fs[path].content.value.JObject?
            && o2.fs[path].content.value.fields[Decimal(a)] == JObject(da)
            && o2.fs[path].content.value.fields[Decimal(b)] == JObject(db)
  {
    var path := DataFilePath(cwd, folder, filename, extension);
    var o1 := AddData(p, fs, cwd, folder, filename, extension, a, da, None);
    var m0 := if path in fs && fs[path].File? && fs[path].content.Parsed? then fs[path].content.value.fields else map[];
    AddDataOnto(p, fs, cwd, folder, filename, extension, a, da, m0);
    var m1 := m0[Decimal(a) := JObject(da)];
    assert Existing(o1.fs, path) == Ok(m1);
    var o2 := AddData(o1.persister, o1.fs, cwd, folder, filename, extension, b, db, None);
    assert o2.result.Ok?;
    AddDataOnto(o1.persister, o1.fs, cwd, folder, filename, extension, b, db, m1);
    if Decimal(a) == Decimal(b) {
      DecimalInjective(a, b);
    }
  }

  /** One successful `add_data` onto a file holding `m` (or nothing readable) leaves it holding
      `m` with the new record. */
  lemma AddDataOnto(p: Persister, fs: Fs, cwd: AbsPath, folder: string, filename: string,
                    extension: string, id: int, data: Record, m: map<string, Json>)
    requires var path := DataFilePath(cwd, folder, filename, extension);
             HoldsObject(fs, path, m) || (m == map[] && (path !in fs || fs[path] == File(Garbled)))
    requires AddData(p, fs, cwd, folder, filename, extension, id, data, None).result.Ok?
    ensures HoldsObject(AddData(p, fs, cwd, folder, filename, extension, id, data, None).fs,
                        DataFilePath(cwd, folder, filename, extension), m[Decimal(id) := JObject(data)])
  {
  }
}

=== FILE: records.dfy ===
/** The values both Burp engines store: JSON records keyed by integer ids. */
module Records {

  /** A decoded JSON value. Numbers are integers here (see README, "Left out"). */
  datatype Json =
    | JNull
    | JBool(b: bool)
    | JNumber(n: int)
    | JString(s: string)
    | JArray(items: seq<Json>)
    | JObject(fields: map<string, Json>)

  /** A record is a Python dict with string keys. */
  type Record = map<string, Json>

  /** One table: record id to record. */
  type Table = map<int, Record>

  /** The encodings both engines accept in `create_database`. */
  const CommonEncodings: seq<string> := ["utf-8", "utf-16", "latin-1", "ascii"]

  /** The loop `for key, value in data.items(): rec[key] = value`. */
  function Merge(rec: Record, data: Record): (r: Record)
    ensures r.Keys == rec.Keys + data.Keys
    ensures forall k :: k in data ==> r[k] == data[k]
    ensures forall k :: k in rec && k !in data ==> r[k] == rec[k]
  {
    rec + data
  }

  /** Merging the same fields twice changes nothing the first merge did not. */
  lemma MergeIdempotent(rec: Record, data: Record)
    ensures Merge(Merge(rec, data), data) == Merge(rec, data)
  {
  }

  /** The character Python's `str` prints for a decimal digit. */
  function Digit(d: int): (c: char)
    requires 0 <= d < 10
    ensures '0' <= c <= '9'
    ensures c as int - '0' as int == d
  {
    ('0' as int + d) as char
  }

  /** Python's `str(n)`: the key `json.dump` writes for the int key `n`. */
  function Decimal(n: int): (r: string)
    ensures |r| > 0
    ensures n < 0 <==> r[0] == '-'
    ensures n >= 0 ==> forall i :: 0 <= i < |r| ==> '0' <= r[i] <= '9'
    ensures n >= 0 ==> (|r| == 1 <==> n < 10)
    decreases if n < 0 then 1 - n else n
  {
    if n < 0 then "-" + Decimal(-n)
    else if n < 10 then [Digit(n)]
    else Decimal(n / 10) + [Digit(n % 10)]
  }

  /** Distinct ids never share a key on disk. */
  lemma {:induction false} DecimalInjective(a: int, b: int)
    requires Decimal(a) == Decimal(b)
    ensures a == b
    decreases if a < 0 then 1 - a else a
  {
    if a < 0 {
      assert b < 0;
      SplitFirst("-", Decimal(-a), "-", Decimal(-b));
      DecimalInjective(-a, -b);
    } else if a < 10 {
      assert b < 10;
      assert Decimal(a)[0] == Digit(a) && Decimal(b)[0] == Digit(b);
    } else {
      assert b >= 10;
      SplitLast(Decimal(a / 10), Digit(a % 10), Decimal(b / 10), Digit(b % 10));
      DecimalInjective(a / 10, b / 10);
    }
  }

  /** Equal strings with equal-length heads have equal tails. */
  lemma SplitFirst(x: string, y: string, u: string, v: string)
    requires x + y == u + v && |x| == |u|
    ensures y == v
  {
    assert y == (x + y)[|x|..];
    assert v == (u + v)[|u|..];
  }

  /** Equal strings that end in one character each agree on the rest and on that character. */
  lemma SplitLast(x: string, c: char, y: string, d: char)
    requires x + [c] == y + [d]
    ensures x == y && c == d
  {
    assert x == (x + [c])[..|x|];
    assert y == (y + [d])[..|y|];
  }
}

=== FILE: results.dfy ===
/** Optional values, results and the error reasons the Burp engines raise. */
module Results {

  /** Python's `None` or a present value. */
  datatype Option<+T> = None | Some(value: T)

  /** Python truthiness of an optional string: `None` and `""` are both false. */
  predicate Truthy(o: Option<string>)
  {
    o.Some? && o.value != ""
  }

  /** Python's `o or default` on an optional string. */
  function OrElse(o: Option<string>, default: string): (r: string)
    ensures Truthy(o) ==> r == o.value
    ensures !Truthy(o) ==> r == default
  {
    if Truthy(o) then o.value else default
  }

  /** The Python exception classes the engines let escape. */
  datatype PyException = KeyError | ValueError | AttributeError | OSError | Exception

  /** Why an operation failed. */
  datatype Error =
    | NoActiveTable                      // no table selected (table_name is "" or None)
    | UnknownTable(name: string)         // the name is not a key of `tables`
    | UnknownId(id: int)                 // the id is not a key of the active table
    | TableExists(name: string)          // create_table on a registered name
    | DatabaseExists(name: string)       // create_database on a folder that exists
    | InvalidEncoding(encoding: string)  // encoding outside the allow-list
    | NoPersister                        // a persister method called on db_instance = None
    | NotAnObject(path: string)          // a JSON file whose top-level value has no `update`
    | IOError(path: string)              // open/makedirs failed on this path
    | PersisterFailed                    // a persister failure re-raised as a bare `Exception`
    | InvalidKey                         // `Fernet(key)` on a key that is not 32 base64 bytes
    | NotText(path: string)              // reading a file whose bytes do not decode (UnicodeDecodeError)

  /** The Python exception class each failure surfaces as. */
  function Raised(e: Error): PyException
  {
    match e
    case NoActiveTable | UnknownTable(_) | UnknownId(_) | TableExists(_) | DatabaseExists(_) => KeyError
    case InvalidEncoding(_) | InvalidKey | NotText(_) => ValueError
    case NoPersister | NotAnObject(_) => AttributeError
    case IOError(_) => OSError
    case PersisterFailed => Exception
  }

  datatype Result<+T> = Ok(value: T) | Err(error: Error)
}
